=== FILE: README.md ===
# Bill-of-materials inventory: a Dafny model of the demand engine

The inventory program keeps a catalog of indivisible *parts* and of
*assemblies*. An assembly is built from parts and from other assemblies
according to its bill of materials, and it holds between 0 and `capacity`
units in stock (`on_hand`). Commands register parts and assemblies, fulfil
orders, stock and restock assemblies, and empty them. The engine behind
these commands works out how many units must be made, drawing on stock
first, and expands what is made into sub-assemblies and raw parts. The
missing raw parts are collected in one flattened shortage list.

This project models that engine as pure functions over immutable values:

- `Ids`: the identifier shape (prefix `P` or `A`, at most `ID_MAX` = 11
  characters) and the exact-match linear search behind every lookup.
- `Catalog`: the structs of `inventory.h` and the functions `add_part`,
  `add_assembly`, `add_item`, `valid_item` and the lookups.
  - Linked lists are sequences in list order: parts are appended, and
    assemblies and item lines are prepended.
  - The C counters are kept as fields beside their lists. That they agree
    with the lists is part of the invariant `Catalog.Valid`.
  - `Catalog.Valid` also says that ids are distinct and well formed, that
    `0 <= on_hand <= capacity` holds, and that each bill of materials names
    only registered components.
  - A component assembly always sits further down the assembly list than
    the assembly that uses it. So the bill-of-materials graph has no cycle.
- `Demand`: `get`, `make`, `stock` and `restock` as mutually recursive
  functions on a `State`.
  - A `State` holds the inventory, the shared shortage list and the
    `>>> ...` progress lines printed so far (an event log).
  - The recursion terminates by registration rank, then a get/make/loop
    tag, then the bill-of-materials lines still to expand.
- `Commands`: the `process_request` branches that change state: `addPart`,
  `addAssembly` (all or nothing), `fulfillOrder` (a fold of `make`),
  `stock`, `restock`, `empty` and `clear`, plus the request loop.
- `DemandProps` and `OrderProps`: properties that relate several
  operations.
  - `make` and `get` agree on state.
  - `get` of n units followed by `stock` of n units restores `on_hand`
    exactly when `n <= on_hand` or the assembly was full.
  - `restock ID` below the threshold is the restocking line followed by
    `stock` of `capacity - on_hand` units under that id.
  - restock of every assembly is idempotent.
  - An independent definition of the flattened bill of materials
    (`Explode`) gives the exact shortage of `get`, `make`, `stock` and one
    restock step when no assembly further down the list has stock. It
    also gives each part's quantity on the list `fulfillOrder` prints
    when nothing is on hand, and on the list `stock` prints when nothing
    is on hand further down the list.
  - The fulfillOrder loop splits over an order and stops at its first
    invalid pair.
- `Scenarios`: worked examples on a one-part catalog.

Two properties are stated only in a restricted form. The first fails in
general; the second is only unproved in general.

- `get(id, n)` followed by `stock(id, n)`, for `n <= capacity`, restores
  `on_hand` exactly when `n <= on_hand`. For `n > capacity` it restores
  `on_hand` only when the assembly was full. If `on_hand < n`, `get`
  empties the stock and makes the rest, and `stock` then adds
  `min(n, capacity)` units on top of 0. So `n <= capacity` is not enough.
  `DemandProps.GetThenStockOnHand` gives the resulting on_hand for every
  n. `Scenarios.GetThenStockCanOvershoot` exhibits on_hand 3 becoming 5,
  and `Scenarios.GetThenStockFull` a full assembly of 10 that stays at 10
  after get 15 and stock 15.
- Splitting an order line `A n+m` into `A n, A m` is proved to ask for
  the same parts only when nothing is on hand
  (`OrderProps.SplitPairNoStock`). The identity is expected to hold with
  stock on hand as well: each assembly builds the total requested of it
  less its on_hand, whatever the split, and the report is sorted before
  it is printed (inventory.c:868). The model does not prove that case.

## Model

| member | source | states |
|---|---|---|
| Ids.Find | inventory.c:276-344 | the lookup returns the first index holding exactly that id; no earlier entry holds it; it returns none exactly when the id is absent |
| Ids.DistinctFind | inventory.c:303-318 | in a list without repeated ids, the linear search for an entry's own id stops at that entry, as when restock looks an assembly up again by its id |
| Ids.DistinctCard | inventory.h:43-55 | a list without repeated ids has as many distinct ids as entries |
| Catalog.ValidItemRegistered | inventory.c:104-141 | valid_item accepts exactly a well-formed part id on the part list or a well-formed assembly id on the assembly list |
| Catalog.KindsSeparate | inventory.c:57-93 | under the invariant no id is registered both as a part and as an assembly, because the two kinds have different prefixes |
| Catalog.QtyAt | inventory.c:509-512 | in a list without repeats, the total for a listed id is the quantity on its own line |
| Catalog.AddItem | inventory.c:469-524 | an unregistered or malformed id leaves the list unchanged; an id already listed keeps the ids and item_count; a new id goes in front with item_count + 1; every id's total rises by the quantity for that id only; no id is ever listed twice |
| Catalog.CountsAreDistinct | inventory.h:43-49 | under the invariant, part_count and assembly_count equal the number of distinct ids on their lists |
| Catalog.ItemCountIsDistinct | inventory.h:51-55 | item_count equals the number of distinct ids of an items_needed list |
| Catalog.AddPart | inventory.c:355-399 | a duplicate id leaves the inventory unchanged; otherwise the part goes at the tail and part_count rises by 1, with assemblies untouched; the invariant is kept |
| Catalog.AddAssembly | inventory.c:412-460 | an ill-formed id, a negative capacity or a duplicate id leaves the inventory unchanged; otherwise exactly one assembly with on_hand 0 goes at the head and assembly_count rises by 1; the invariant is kept when the bill of materials names registered components |
| Catalog.PrependShifts | inventory.c:446-449 | after a head insertion every registered id stays valid and each old assembly moves one place down the list |
| Catalog.SetOnHand | inventory.c:703-706 | only the chosen assembly's on_hand changes; the invariant is kept when the new value is within 0..capacity |
| Catalog.SameShapeLookups | inventory.c:308-319 | inventories that differ only in on_hand answer every lookup and validity test alike |
| Demand.Get | inventory.c:747-776 | n <= 0 or an unknown id changes nothing; with enough stock on_hand drops by n and nothing else changes; otherwise on_hand becomes 0 and a make line for n - on_hand is logged; bounds, shape and well-formed part-only shortages are kept; assemblies earlier in the list are untouched |
| Demand.Make | inventory.c:683-735 | n <= 0 or an unknown id changes nothing; n >= on_hand empties the stock and logs a make line for n - on_hand, even one for 0 units, and when n == on_hand on_hand becomes 0 with the shortages unchanged; n < on_hand only lowers on_hand by n; bounds, shape and shortages are kept |
| Demand.Expand | inventory.c:708-729 | the bill-of-materials loop keeps the invariant and the shape, only raises shortage totals, keeps the shortage list part-only, and leaves the assembly being made and every assembly registered after it untouched |
| Demand.Stock | inventory.c:153-210 | n <= 0 or an unknown id changes nothing; otherwise on_hand becomes min(on_hand + n, capacity); a full assembly is left as is with nothing printed; otherwise the first line logged is a make line for the amount actually added |
| Demand.RestockAt | inventory.c:227-242 | below the threshold 2 * on_hand < capacity the assembly is logged as restocked with capacity - on_hand units and ends full; at or above it nothing changes |
| Demand.Restock | inventory.c:243-262 | an unknown id changes nothing; a known id below the threshold ends full, and the first line logged is the restocking line for capacity - on_hand units under the requested id; one at or above it is left as is |
| Demand.RestockFrom | inventory.c:225-242 | the head-first loop leaves every assembly from position k on at or above the threshold, and leaves earlier ones untouched |
| Demand.RestockAll | inventory.c:221-242 | after restocking the whole list no assembly is below the threshold, and the invariant and shape are kept |
| DemandProps.MakeMatchesGet | inventory.c:683-776 | make and get leave the same inventory and shortage list; their logs differ only by make's "make 0 units" line when n == on_hand |
| DemandProps.GetThenStockOnHand | inventory.c:153-178 | after get of n > 0 units, stock of n units leaves on_hand as it was when n <= on_hand, and min(n, capacity) otherwise; so on_hand is restored exactly when n <= on_hand or the assembly was full |
| DemandProps.GetThenStock | inventory.c:153-210 | taking n units, with 0 < n <= on_hand, then stocking n units restores on_hand |
| DemandProps.RestockAllIdempotent | inventory.c:221-242 | a second restock of every assembly changes nothing |
| DemandProps.RestockFromSettled | inventory.c:227-240 | the restock loop over assemblies that are all at or above the threshold changes nothing |
| DemandProps.ExplodeSameShape | inventory.c:708-729 | the flattened bill of materials depends only on the catalog, not on what is on hand |
| DemandProps.ExplodeLinesSameShape | inventory.c:708-729 | the flattened share of bill-of-materials lines k.. depends only on the catalog, not on what is on hand |
| DemandProps.GetNoStock | inventory.c:747-776 | with nothing on hand further down the list, get of n > 0 units takes n from stock or empties it, changes no other assembly, and adds (n - on_hand if positive) times the flattened bill of materials to each part's shortage |
| DemandProps.MakeNoStock | inventory.c:683-735 | with nothing on hand further down the list, make of n > 0 units lowers on_hand by n or to 0, changes no other assembly, and adds (n - on_hand if positive) times the flattened bill of materials to each part's shortage |
| DemandProps.ExpandNoStock | inventory.c:708-729 | with nothing on hand further down the list, expanding lines k.. for an amount leaves the inventory as it was and adds that amount times those lines' flattened share |
| DemandProps.ExpandPartLine | inventory.c:715-719 | a part line adds quantity * amount of that part, then the rest of the lines follow |
| DemandProps.ExpandAssemblyLine | inventory.c:720-724 | with nothing on hand further down the list, a sub-assembly line adds amount times quantity times that sub-assembly's flattened bill of materials, then the rest of the lines follow |
| DemandProps.StockNoStock | inventory.c:153-210 | with nothing on hand further down the list, stock of n > 0 units sets on_hand to min(on_hand + n, capacity), changes no other assembly, and adds min(n, capacity - on_hand) times the flattened bill of materials to each part's shortage |
| DemandProps.RestockAtNoStock | inventory.c:221-242 | with nothing on hand further down the list, a restock step fills an assembly below the threshold and adds capacity - on_hand times its flattened bill of materials; otherwise it changes nothing |
| DemandProps.RestockAtIsStock | inventory.c:227-242 | a restock step on an assembly below the threshold is exactly a Restocking log line for capacity - on_hand followed by stock of that many units under the assembly's own id |
| DemandProps.RestockIsStock | inventory.c:250-257 | restock ID on a known assembly below the threshold is exactly the restocking line for capacity - on_hand units followed by stock of that many units under the same id, which makes them and adds their parts to the shortage list |
| Commands.AddPartCommand | inventory.c:905-916 | a malformed or duplicate id changes nothing; otherwise exactly one part is appended; the invariant is kept |
| Commands.BuildBom | inventory.c:939-962 | the list is accepted exactly when every component is registered and every quantity is positive; then each id's total is the sum of its quantities over the pairs |
| Commands.AddAssemblyCommand | inventory.c:918-980 | all or nothing: if any check fails the inventory is unchanged; otherwise exactly one assembly goes in front with the given id and capacity, on_hand 0, and per-component totals equal to the sums over the pairs; the invariant is kept |
| Commands.FulfillFrom | inventory.c:998-1014 | the loop keeps the invariant and the shape, only raises shortages, keeps them part-only, and ends valid exactly when every pair has a positive quantity and a known assembly |
| Commands.FulfillOrder | inventory.c:982-1031 | the inventory is the one the loop leaves; the shortage list the loop built is printed, whole, exactly when every pair is valid and the list is non-empty; printed shortages are well-formed part shortages; any invalid pair suppresses the report |
| Commands.StockCommand | inventory.c:1033-1057 | the shortage list stock built is printed, whole, exactly when it is non-empty; on a known id with n > 0 on_hand becomes min(on_hand + n, capacity); n <= 0 or an unknown id changes nothing and reports nothing |
| Commands.RestockCommand | inventory.c:1059-1090 | with no argument or one argument the shortage list restock built is printed, whole, exactly when it is non-empty; with no argument every assembly ends at or above the threshold; with more than one argument nothing happens |
| Commands.EmptyCommand | inventory.c:1092-1115 | an id without the A prefix or not registered changes nothing; otherwise that assembly's on_hand becomes 0 and nothing else changes |
| Commands.Step | inventory.c:900-1201 | each request keeps the catalog invariant |
| Commands.Run | inventory.c:1313-1344 | any sequence of requests keeps the catalog invariant |
| Commands.OnHandWithinCapacity | inventory.c:420-441 | after any sequence of requests from the empty inventory, 0 <= on_hand <= capacity for every assembly, and the counters count distinct ids |
| OrderProps.FulfillAppend | inventory.c:1000-1014 | after a fully valid prefix of the order, the rest is processed from the state that prefix left |
| OrderProps.FulfillStops | inventory.c:1007-1013 | after an invalid pair nothing further in the order is made or checked |
| OrderProps.FulfillNoStock | inventory.c:998-1014 | with nothing on hand, a valid order leaves the inventory as it was and adds, for each pair, quantity times the flattened bill of materials |
| OrderProps.FulfillOrderNoStock | inventory.c:982-1031 | with nothing on hand, fulfillOrder of a valid order leaves the inventory as it was, prints for every part exactly the order's total demand (each pair's quantity times its flattened bill of materials), and prints a list exactly when some part is needed |
| OrderProps.ReportShowsAll | inventory.c:1018-1024 | a printed list that is the whole shortage list shows every part's shortage, and it is printed exactly when some part is short |
| OrderProps.StockCommandNoStock | inventory.c:1033-1057 | with nothing on hand further down the list, stock n prints for every part min(n, capacity - on_hand) times the flattened bill of materials, and prints a list exactly when that is nonzero for some part |
| OrderProps.SplitPairNoStock | inventory.c:998-1014 | with nothing on hand, the order A n+m and the order A n, A m leave the same inventory and the same shortages |
| Scenarios.SampleByCommands | inventory.c:905-980 | addPart P1 then addAssembly A1 10 P1 2 registers exactly the sample catalog |
| Scenarios.GetFromEmpty | inventory.c:747-776 | get 5 of A1 with none on hand makes 5 units and leaves ten P1 short |
| Scenarios.GetFromStock | inventory.c:764-766 | get 4 of A1 with 10 on hand leaves 6 on hand and makes nothing |
| Scenarios.StockCapped | inventory.c:168-178 | stock 100 of A1 with none on hand adds 10 units and leaves twenty P1 short |
| Scenarios.GetThenStockCanOvershoot | inventory.c:768-771 | get 5 then stock 5 with 3 on hand ends with 5 on hand, not 3 |
| Scenarios.GetThenStockFull | inventory.c:168-178 | get 15 then stock 15 of a full A1 (10 of 10) ends with 10 on hand again, because stock caps at capacity |
| Scenarios.RestockAllPair | inventory.c:225-240 | restock over A2 at 8 of 10 and A1 at 2 of 10 leaves A2 alone and fills A1 with 8 units, which need sixteen P1 |

## Left out

- Input handling is not modelled: reading lines from a file or stdin, the comment and blank-line rules, tokenising, `trim`, `strtol` parsing and `main`'s file errors. Requests arrive already parsed, with integer arguments.
- Command dispatch compares with `strncmp(command, name, strlen(command))`, so an abbreviation picks the first matching branch. This prefix matching is not modelled; a request arrives as one `Request` constructor.
- `inventory`, `parts`, `help` and unknown commands only print. They are one `report` request that changes nothing. `print_*`, the `to_*_array` helpers and the qsort comparators are not modelled.
- Printed text is not modelled. Only the `>>> make N units of assembly X` and `>>> restocking assembly X with N items` lines are kept, as an event log. Error messages are dropped.
- Memory management (`calloc`, `free_*`, the reallocation in `clear`) is not modelled. `clear` resets to the empty inventory.
- C `int` arithmetic is modelled as mathematical integers. `quantity * amount` and `on_hand + n` cannot overflow here.
- Numbers are mathematical integers, while the code narrows the `long` that `strtol` returns to `int` when it passes it on (inventory.c:970, 1004, 1041). For example, `fulfillOrder A1 4294967296` reaches `make` as 0 units, yet the test at inventory.c:1008 sees a positive value and carries on; the model makes 4294967296 units. Only values within `int` range behave as in the code.
- Ids are sequences of characters and their length is counted in characters, while `strlen` counts bytes (inventory.c:63, 86). An id with non-ASCII letters, such as `PÄÄÄÄÄÄ` (13 bytes), is rejected by the code as too long but accepted by the model. For ASCII ids the two agree.
- The global `inventory` pointer is passed explicitly, including where `add_item` reads it.
- `struct req` of inventory.h is unused by the program and is not modelled.
- Argument counts are taken as well formed: pairs are `Item` values, and `stock` always has an id and a number. The code reads missing arguments out of bounds. A trailing component id without a quantity in `addAssembly` is ignored by the code; such an id is simply absent from the parsed list.
- The bill-of-materials graph is acyclic by construction (components must be registered before the assembly). The model takes the catalog invariant as a precondition of the resolver. The unbounded recursion a cycle would cause cannot arise from the commands.
- Demand.Make: the exact shortage a call adds, and the on_hand of assemblies further down the list, are stated only when nothing is on hand further down the list (DemandProps.MakeNoStock). In general the contract states that every total only rises and that the list stays a well-formed list of part shortages.
- Demand.Get: as for Demand.Make, the exact shortage is stated only when nothing is on hand further down the list (DemandProps.GetNoStock).
- Demand.Expand: what the loop adds per line, and what it leaves on hand further down the list, are stated only when nothing is on hand further down the list (DemandProps.ExpandNoStock, ExpandPartLine, ExpandAssemblyLine). In general the contract gives the invariant, growth of the shortages and the frame.
- Demand.Stock: the shortage that the expansion adds is stated only when nothing is on hand further down the list (DemandProps.StockNoStock). In general the contract gives on_hand, the first logged line and growth of the shortages.
- OrderProps.SplitPairNoStock: additivity of repeated order pairs is proved only for an inventory with nothing on hand. With stock on hand the sub-assemblies' stock is drawn in a different interleaving, and that general case is not proved.
- Commands.RestockCommand: for a single argument the contract ties the printed list to the one restock built, but gives no per-assembly result. That result is stated on Demand.Restock (on_hand and the restocking line) and DemandProps.RestockIsStock (the stock call it makes).

=== FILE: catalog.dfy ===
// The catalog: the part list, the assembly list, and the items_needed lists
// that serve both as bills of materials and as shortage lists.

/** The data of inventory.h and the ADD FUNCTIONS of inventory.c.
    Linked lists become sequences in list order (head first); the counters
    the C structs keep beside their lists are kept as fields too, so that
    their agreement with the lists is a proved invariant, not a definition. */
module Catalog {
  import opened Ids

  /** `struct part`: a part is its identifier. */
  datatype Part = Part(id: Id)

  /** `struct item`: one line of an items_needed list. */
  datatype Item = Item(id: Id, quantity: int)

  /** `struct items_needed`: a list of items, newest first, with its count. */
  datatype ItemsNeeded = ItemsNeeded(list: seq<Item>, count: int)

  /** `struct assembly`: capacity and bill of materials are fixed at
      registration, on_hand is the one mutable field. */
  datatype Assembly = Assembly(id: Id, capacity: int, onHand: int, items: ItemsNeeded)

  /** `struct inventory`: parts in registration order (appended at the tail),
      assemblies newest first (prepended at the head). */
  datatype Inventory = Inventory(
    parts: seq<Part>,
    partCount: int,
    assemblies: seq<Assembly>,
    assemblyCount: int)

  /** The inventory `main` starts with and `clear` resets to. */
  const EmptyInventory: Inventory := Inventory([], 0, [], 0)

  /** A freshly allocated items_needed list. */
  const NoItems: ItemsNeeded := ItemsNeeded([], 0)

  function PartIds(ps: seq<Part>): seq<Id> {
    seq(|ps|, k requires 0 <= k < |ps| => ps[k].id)
  }

  function AssemblyIds(xs: seq<Assembly>): seq<Id> {
    seq(|xs|, k requires 0 <= k < |xs| => xs[k].id)
  }

  function ItemIds(items: seq<Item>): seq<Id> {
    seq(|items|, k requires 0 <= k < |items| => items[k].id)
  }

  /** lookup_part */
  function LookupPart(inv: Inventory, id: Id): Option<nat> {
    Find(PartIds(inv.parts), id)
  }

  /** lookup_assembly */
  function LookupAssembly(inv: Inventory, id: Id): Option<nat> {
    Find(AssemblyIds(inv.assemblies), id)
  }

  /** lookup_item */
  function LookupItem(items: seq<Item>, id: Id): Option<nat> {
    Find(ItemIds(items), id)
  }

  /** valid_item, and the identical test at the top of add_item: a well-formed
      id of either kind that is registered in the inventory. */
  predicate ValidItem(inv: Inventory, id: Id) {
    if IsPartId(id) then ValidPartId(id) && LookupPart(inv, id).Some?
    else if IsAssemblyId(id) then ValidAssemblyId(id) && LookupAssembly(inv, id).Some?
    else false
  }

  /** valid_item accepts exactly the well-formed ids found in the list of
      their kind. */
  lemma ValidItemRegistered(inv: Inventory, id: Id)
    ensures ValidItem(inv, id) <==>
      || (ValidPartId(id) && id in PartIds(inv.parts))
      || (ValidAssemblyId(id) && id in AssemblyIds(inv.assemblies))
  {
  }

  /** Total quantity listed for `id`: the map view of an items_needed list. */
  function Qty(items: seq<Item>, id: Id): int {
    if |items| == 0 then 0
    else (if items[0].id == id then items[0].quantity else 0) + Qty(items[1..], id)
  }

  /** Every line of the list asks for a positive amount. */
  ghost predicate Positive(items: seq<Item>) {
    forall k | 0 <= k < |items| :: items[k].quantity > 0
  }

  /** item_count agrees with the list and no id is listed twice. */
  ghost predicate ItemsOk(items: ItemsNeeded) {
    items.count == |items.list| && Distinct(ItemIds(items.list))
  }

  /** The quantity of a listed id is the quantity on its line. */
  lemma {:induction false} QtyAt(items: seq<Item>, k: nat)
    requires Distinct(ItemIds(items)) && k < |items|
    ensures Qty(items, items[k].id) == items[k].quantity
  {
    assert ItemIds(items[1..]) == ItemIds(items)[1..];
    if k == 0 {
      assert forall j | 1 <= j < |items| :: ItemIds(items)[j] != ItemIds(items)[0];
      QtyAbsent(items[1..], items[0].id);
    } else {
      assert ItemIds(items)[0] != ItemIds(items)[k];
      assert items[1..][k - 1] == items[k];
      QtyAt(items[1..], k - 1);
    }
  }

  /** An id that is not listed has quantity 0. */
  lemma {:induction false} QtyAbsent(items: seq<Item>, id: Id)
    requires id !in ItemIds(items)
    ensures Qty(items, id) == 0
  {
    if |items| > 0 {
      assert ItemIds(items)[0] == items[0].id;
      assert ItemIds(items[1..]) == ItemIds(items)[1..];
      QtyAbsent(items[1..], id);
    }
  }

  /** Raising the quantity on line k raises the total of that line's id only. */
  lemma {:induction false} QtyBump(items: seq<Item>, k: nat, q: int, x: Id)
    requires k < |items|
    ensures Qty(items[k := items[k].(quantity := items[k].quantity + q)], x)
         == Qty(items, x) + (if x == items[k].id then q else 0)
  {
    var bumped := items[k := items[k].(quantity := items[k].quantity + q)];
    if k == 0 {
      assert bumped[1..] == items[1..];
    } else {
      assert bumped[1..] == items[1..][k - 1 := items[k].(quantity := items[k].quantity + q)];
      QtyBump(items[1..], k - 1, q, x);
    }
  }

  /** add_item: a registered id already on the list has its quantity raised;
      a registered id not yet on it is put in front and counted; an id that
      is malformed or unregistered leaves the list as it is. */
  function AddItem(inv: Inventory, items: ItemsNeeded, id: Id, quantity: int): (r: ItemsNeeded)
    ensures !ValidItem(inv, id) ==> r == items
    ensures ValidItem(inv, id) && id in ItemIds(items.list) ==>
      r.count == items.count && ItemIds(r.list) == ItemIds(items.list)
    ensures ValidItem(inv, id) && id !in ItemIds(items.list) ==>
      r.list == [Item(id, quantity)] + items.list && r.count == items.count + 1
    ensures forall x :: Qty(r.list, x) == Qty(items.list, x) + (if x == id && ValidItem(inv, id) then quantity else 0)
    ensures ItemsOk(items) ==> ItemsOk(r)
    ensures Positive(items.list) && quantity > 0 ==> Positive(r.list)
  {
    if !ValidItem(inv, id) then items
    else match LookupItem(items.list, id)
      case Some(k) =>
        var line := items.list[k];
        var list' := items.list[k := line.(quantity := line.quantity + quantity)];
        BumpFacts(inv, items.list, k, id, quantity);
        ItemsNeeded(list', items.count)
      case None =>
        var list' := [Item(id, quantity)] + items.list;
        PrependFacts(inv, items.list, id, quantity);
        ItemsNeeded(list', items.count + 1)
  }

  /** The list add_item leaves when the id is already on line k. */
  lemma BumpFacts(inv: Inventory, items: seq<Item>, k: nat, id: Id, quantity: int)
    requires k < |items| && ItemIds(items)[k] == id && ValidItem(inv, id)
    ensures var list' := items[k := items[k].(quantity := items[k].quantity + quantity)];
      && ItemIds(list') == ItemIds(items)
      && (forall x :: Qty(list', x) == Qty(items, x) + (if x == id && ValidItem(inv, id) then quantity else 0))
      && (Positive(items) && quantity > 0 ==> Positive(list'))
  {
    var list' := items[k := items[k].(quantity := items[k].quantity + quantity)];
    assert ItemIds(list') == ItemIds(items);
    forall x
      ensures Qty(list', x) == Qty(items, x) + (if x == id then quantity else 0)
    {
      QtyBump(items, k, quantity, x);
    }
  }

  /** The list add_item leaves when the id is not on it yet. */
  lemma PrependFacts(inv: Inventory, items: seq<Item>, id: Id, quantity: int)
    requires ValidItem(inv, id)
    ensures var list' := [Item(id, quantity)] + items;
      && ItemIds(list') == [id] + ItemIds(items)
      && (forall x :: Qty(list', x) == Qty(items, x) + (if x == id && ValidItem(inv, id) then quantity else 0))
      && (Positive(items) && quantity > 0 ==> Positive(list'))
  {
    var list' := [Item(id, quantity)] + items;
    assert list'[1..] == items;
    assert ItemIds(list') == [id] + ItemIds(items);
  }

  /** The quantities a bill of materials may hold: registered, well-formed
      components, each listed once, each with a positive quantity. */
  ghost predicate BomFits(inv: Inventory, items: ItemsNeeded) {
    && ItemsOk(items)
    && Positive(items.list)
    && forall k | 0 <= k < |items.list| :: ValidItem(inv, items.list[k].id)
  }

  ghost predicate Bounded(a: Assembly) {
    0 <= a.onHand <= a.capacity
  }

  /** part_count is the length of the part list; part ids are well formed
      and pairwise distinct. */
  ghost predicate PartsOk(inv: Inventory) {
    && inv.partCount == |inv.parts|
    && Distinct(PartIds(inv.parts))
    && forall k | 0 <= k < |inv.parts| :: ValidPartId(inv.parts[k].id)
  }

  /** assembly_count is the length of the assembly list; assembly ids are
      well formed and pairwise distinct; 0 <= on_hand <= capacity. */
  ghost predicate AssembliesOk(inv: Inventory) {
    && inv.assemblyCount == |inv.assemblies|
    && Distinct(AssemblyIds(inv.assemblies))
    && forall k | 0 <= k < |inv.assemblies| ::
         ValidAssemblyId(inv.assemblies[k].id) && Bounded(inv.assemblies[k])
  }

  /** A component of the assembly at index i: registered, and when it is an
      assembly, registered before it, so further down the list. */
  ghost predicate ComponentOk(inv: Inventory, i: nat, c: Id) {
    && ValidItem(inv, c)
    && (IsAssemblyId(c) ==> LookupAssembly(inv, c).Some? && LookupAssembly(inv, c).value > i)
  }

  ghost predicate BomOk(inv: Inventory, i: nat)
    requires i < |inv.assemblies|
  {
    var items := inv.assemblies[i].items;
    && ItemsOk(items)
    && Positive(items.list)
    && forall k | 0 <= k < |items.list| :: ComponentOk(inv, i, items.list[k].id)
  }

  /** The catalog invariant every command preserves. Its last conjunct says
      the bill-of-materials graph follows list order, hence has no cycle. */
  ghost predicate Valid(inv: Inventory) {
    && PartsOk(inv)
    && AssembliesOk(inv)
    && forall i | 0 <= i < |inv.assemblies| :: BomOk(inv, i)
  }

  /** No registered id is both a part and an assembly: an id found on one
      list is absent from the other. */
  lemma KindsSeparate(inv: Inventory, id: Id)
    requires Valid(inv)
    ensures LookupPart(inv, id).Some? ==> LookupAssembly(inv, id).None?
    ensures LookupAssembly(inv, id).Some? ==> LookupPart(inv, id).None?
  {
    if LookupPart(inv, id).Some? {
      assert IsPartId(inv.parts[LookupPart(inv, id).value].id);
    }
  }

  /** Every assembly on a list without repeated ids is found at its own
      position. */
  lemma LookupOwnId(inv: Inventory, i: nat)
    requires Distinct(AssemblyIds(inv.assemblies)) && i < |inv.assemblies|
    ensures LookupAssembly(inv, inv.assemblies[i].id) == Some(i)
  {
    DistinctFind(AssemblyIds(inv.assemblies), i);
    assert AssemblyIds(inv.assemblies)[i] == inv.assemblies[i].id;
  }

  lemma EmptyInventoryValid()
    ensures Valid(EmptyInventory)
  {
  }

  /** part_count and assembly_count count distinct parts and assemblies. */
  lemma CountsAreDistinct(inv: Inventory)
    requires Valid(inv)
    ensures inv.partCount == |set id | id in PartIds(inv.parts)|
    ensures inv.assemblyCount == |set id | id in AssemblyIds(inv.assemblies)|
  {
    DistinctCard(PartIds(inv.parts));
    DistinctCard(AssemblyIds(inv.assemblies));
  }

  /** item_count counts distinct ids. */
  lemma ItemCountIsDistinct(items: ItemsNeeded)
    requires ItemsOk(items)
    ensures items.count == |set id | id in ItemIds(items.list)|
  {
    DistinctCard(ItemIds(items.list));
  }

  /** add_part (after addPart has checked the id shape): a duplicate id is
      refused; otherwise the part goes at the tail and is counted. */
  function AddPart(inv: Inventory, id: Id): (r: Inventory)
    ensures LookupPart(inv, id).Some? ==> r == inv
    ensures LookupPart(inv, id).None? ==>
      && r.parts == inv.parts + [Part(id)] && r.partCount == inv.partCount + 1
      && r.assemblies == inv.assemblies && r.assemblyCount == inv.assemblyCount
    ensures Valid(inv) && ValidPartId(id) ==> Valid(r)
  {
    if LookupPart(inv, id).Some? then inv
    else
      var r := inv.(parts := inv.parts + [Part(id)], partCount := inv.partCount + 1);
      AddPartValid(inv, id, r);
      r
  }

  /** add_assembly: an ill-formed id, a negative capacity or a duplicate id
      leaves the inventory unchanged; otherwise the assembly is put at the
      head with nothing on hand, and counted. */
  function AddAssembly(inv: Inventory, id: Id, capacity: int, items: ItemsNeeded): (r: Inventory)
    ensures !ValidAssemblyId(id) || capacity < 0 || LookupAssembly(inv, id).Some? ==> r == inv
    ensures ValidAssemblyId(id) && capacity >= 0 && LookupAssembly(inv, id).None? ==>
      && r.assemblies == [Assembly(id, capacity, 0, items)] + inv.assemblies
      && r.assemblyCount == inv.assemblyCount + 1
      && r.parts == inv.parts && r.partCount == inv.partCount
    ensures Valid(inv) && BomFits(inv, items) ==> Valid(r)
  {
    if !ValidAssemblyId(id) then inv
    else if capacity < 0 then inv
    else if LookupAssembly(inv, id).Some? then inv
    else
      var r := inv.(assemblies := [Assembly(id, capacity, 0, items)] + inv.assemblies,
                    assemblyCount := inv.assemblyCount + 1);
      AddAssemblyValid(inv, id, capacity, items, r);
      r
  }

  lemma AddPartValid(inv: Inventory, id: Id, r: Inventory)
    requires LookupPart(inv, id).None?
    requires r == inv.(parts := inv.parts + [Part(id)], partCount := inv.partCount + 1)
    ensures Valid(inv) && ValidPartId(id) ==> Valid(r)
  {
    if Valid(inv) && ValidPartId(id) {
      assert PartIds(r.parts) == PartIds(inv.parts) + [id];
      assert forall c | ValidItem(inv, c) :: ValidItem(r, c);
      forall i | 0 <= i < |r.assemblies|
        ensures BomOk(r, i)
      {
        assert BomOk(inv, i);
        var list := inv.assemblies[i].items.list;
        forall k | 0 <= k < |list|
          ensures ComponentOk(r, i, list[k].id)
        {
          assert ComponentOk(inv, i, list[k].id);
        }
      }
    }
  }

  /** After prepending `id`, every registered id keeps its validity and moves
      one place down the assembly list. */
  lemma PrependShifts(inv: Inventory, id: Id, a: Assembly, r: Inventory)
    requires a.id == id && LookupAssembly(inv, id).None?
    requires r == inv.(assemblies := [a] + inv.assemblies, assemblyCount := inv.assemblyCount + 1)
    ensures forall c | ValidItem(inv, c) :: ValidItem(r, c)
    ensures forall c | ValidItem(inv, c) && IsAssemblyId(c) ::
      LookupAssembly(r, c).Some? && LookupAssembly(r, c).value == LookupAssembly(inv, c).value + 1
  {
    var old_ids := AssemblyIds(inv.assemblies);
    assert AssemblyIds(r.assemblies) == [id] + old_ids;
    forall c | ValidItem(inv, c)
      ensures ValidItem(r, c)
      ensures IsAssemblyId(c) ==>
        LookupAssembly(r, c).Some? && LookupAssembly(r, c).value == LookupAssembly(inv, c).value + 1
    {
      FindCons(id, old_ids, c);
      if IsAssemblyId(c) {
        assert c != id;
      }
    }
  }

  lemma AddAssemblyValid(inv: Inventory, id: Id, capacity: int, items: ItemsNeeded, r: Inventory)
    requires ValidAssemblyId(id) && capacity >= 0 && LookupAssembly(inv, id).None?
    requires r == inv.(assemblies := [Assembly(id, capacity, 0, items)] + inv.assemblies,
                       assemblyCount := inv.assemblyCount + 1)
    ensures Valid(inv) && BomFits(inv, items) ==> Valid(r)
  {
    if Valid(inv) && BomFits(inv, items) {
      PrependShifts(inv, id, Assembly(id, capacity, 0, items), r);
      assert AssemblyIds(r.assemblies) == [id] + AssemblyIds(inv.assemblies);
      assert AssembliesOk(r);
      assert BomOk(r, 0);
      forall i | 1 <= i < |r.assemblies|
        ensures BomOk(r, i)
      {
        assert r.assemblies[i] == inv.assemblies[i - 1];
        assert BomOk(inv, i - 1);
        var list := inv.assemblies[i - 1].items.list;
        forall k | 0 <= k < |list|
          ensures ComponentOk(r, i, list[k].id)
        {
          assert ComponentOk(inv, i - 1, list[k].id);
        }
      }
    }
  }

  /** Replace the on_hand of the assembly at index i, nothing else. */
  function SetOnHand(inv: Inventory, i: nat, v: int): (r: Inventory)
    requires i < |inv.assemblies|
    ensures SameShape(inv, r)
    ensures r.assemblies[i].onHand == v
    ensures forall j | 0 <= j < |inv.assemblies| && j != i :: r.assemblies[j] == inv.assemblies[j]
    ensures v == inv.assemblies[i].onHand ==> r == inv
    ensures Valid(inv) && 0 <= v <= inv.assemblies[i].capacity ==> Valid(r)
  {
    var r := inv.(assemblies := inv.assemblies[i := inv.assemblies[i].(onHand := v)]);
    assert Valid(inv) && 0 <= v <= inv.assemblies[i].capacity ==> Valid(r) by {
      if Valid(inv) && 0 <= v <= inv.assemblies[i].capacity {
        SameShapeValid(inv, r);
      }
    }
    r
  }

  /** Only on_hand values differ: same parts, same assemblies in the same
      order with the same capacities and bills of materials. */
  ghost predicate SameShape(inv: Inventory, inv': Inventory) {
    && inv'.parts == inv.parts
    && inv'.partCount == inv.partCount
    && inv'.assemblyCount == inv.assemblyCount
    && |inv'.assemblies| == |inv.assemblies|
    && forall k | 0 <= k < |inv.assemblies| ::
         && inv'.assemblies[k].id == inv.assemblies[k].id
         && inv'.assemblies[k].capacity == inv.assemblies[k].capacity
         && inv'.assemblies[k].items == inv.assemblies[k].items
  }

  /** Inventories of the same shape answer every lookup alike. */
  lemma SameShapeLookups(inv: Inventory, inv': Inventory)
    requires SameShape(inv, inv')
    ensures AssemblyIds(inv'.assemblies) == AssemblyIds(inv.assemblies)
    ensures forall c :: LookupAssembly(inv', c) == LookupAssembly(inv, c)
    ensures forall c :: ValidItem(inv', c) == ValidItem(inv, c)
  {
  }

  /** Changing on_hand values within bounds keeps the catalog invariant. */
  lemma SameShapeValid(inv: Inventory, inv': Inventory)
    requires Valid(inv) && SameShape(inv, inv')
    requires forall k | 0 <= k < |inv'.assemblies| :: Bounded(inv'.assemblies[k])
    ensures Valid(inv')
  {
    SameShapeLookups(inv, inv');
    forall i | 0 <= i < |inv'.assemblies|
      ensures BomOk(inv', i)
    {
      assert BomOk(inv, i);
      var list := inv.assemblies[i].items.list;
      forall k | 0 <= k < |list|
        ensures ComponentOk(inv', i, list[k].id)
      {
        assert ComponentOk(inv, i, list[k].id);
      }
    }
  }
}

=== FILE: commands.dfy ===
// The request handlers of process_request that change the inventory.

/** The PROCESS REQUESTS branches of inventory.c that change state, on
    already tokenised and parsed arguments: a component or order line
    `id qty` is an `Item`, numbers are already integers. */
module Commands {
  import opened Ids
  import opened Catalog
  import opened Demand

  /** What a request leaves behind: the inventory, the progress lines it
      printed, and the "Parts needed" list when one is printed. */
  datatype Reply = Reply(inv: Inventory, log: seq<Event>, report: Option<ItemsNeeded>)

  /** The shortage list a request prints, if it prints one. */
  function Report(needed: ItemsNeeded, shown: bool): Option<ItemsNeeded> {
    if shown && needed.count > 0 then Some(needed) else None
  }

  /** The lines of the printed shortage list; none when nothing is printed. */
  function Shown(r: Reply): seq<Item> {
    if r.report.Some? then r.report.value.list else []
  }

  /** addPart ID */
  function AddPartCommand(inv: Inventory, id: Id): (r: Inventory)
    ensures !ValidPartId(id) || LookupPart(inv, id).Some? ==> r == inv
    ensures ValidPartId(id) && LookupPart(inv, id).None? ==>
      && r.parts == inv.parts + [Part(id)] && r.partCount == inv.partCount + 1
      && r.assemblies == inv.assemblies && r.assemblyCount == inv.assemblyCount
    ensures Valid(inv) ==> Valid(r)
  {
    if ValidPartId(id) then AddPart(inv, id) else inv
  }

  /** The loop of addAssembly over its `componentID qty` pairs: each
      component must be registered and each quantity positive, or the whole
      list is abandoned; repeated components have their quantities summed. */
  function BuildBom(inv: Inventory, components: seq<Item>, items: ItemsNeeded): (r: Option<ItemsNeeded>)
    ensures r.Some? <==>
      forall k | 0 <= k < |components| :: ValidItem(inv, components[k].id) && components[k].quantity > 0
    ensures r.Some? ==> forall x :: Qty(r.value.list, x) == Qty(items.list, x) + Qty(components, x)
    ensures r.Some? && BomFits(inv, items) ==> BomFits(inv, r.value)
    decreases |components|
  {
    if |components| == 0 then Some(items)
    else
      var c := components[0];
      if !ValidItem(inv, c.id) || c.quantity <= 0 then None
      else
        var r := BuildBom(inv, components[1..], AddItem(inv, items, c.id, c.quantity));
        BomStep(inv, components, items, r);
        r
  }

  /** The three facts of BuildBom carried from the rest of the list and the
      first pair's AddItem to the whole list. */
  lemma {:induction false} BomStep(inv: Inventory, components: seq<Item>, items: ItemsNeeded, r: Option<ItemsNeeded>)
    requires |components| > 0 && ValidItem(inv, components[0].id) && components[0].quantity > 0
    requires r.Some? <==>
      forall k | 0 <= k < |components[1..]| :: ValidItem(inv, components[1..][k].id) && components[1..][k].quantity > 0
    requires r.Some? ==>
      forall x :: Qty(r.value.list, x)
               == Qty(AddItem(inv, items, components[0].id, components[0].quantity).list, x) + Qty(components[1..], x)
    requires r.Some? && BomFits(inv, AddItem(inv, items, components[0].id, components[0].quantity)) ==> BomFits(inv, r.value)
    ensures r.Some? <==>
      forall k | 0 <= k < |components| :: ValidItem(inv, components[k].id) && components[k].quantity > 0
    ensures r.Some? ==> forall x :: Qty(r.value.list, x) == Qty(items.list, x) + Qty(components, x)
    ensures r.Some? && BomFits(inv, items) ==> BomFits(inv, r.value)
  {
    assert forall k | 1 <= k < |components| :: components[1..][k - 1] == components[k];
    AddItemFits(inv, items, components[0].id, components[0].quantity);
  }

  /** Adding a registered id with a positive quantity keeps a bill of
      materials well formed. */
  lemma {:induction false} AddItemFits(inv: Inventory, items: ItemsNeeded, id: Id, quantity: int)
    requires ValidItem(inv, id) && quantity > 0
    ensures BomFits(inv, items) ==> BomFits(inv, AddItem(inv, items, id, quantity))
  {
    var r := AddItem(inv, items, id, quantity);
    if !BomFits(inv, items) {
    } else if id in ItemIds(items.list) {
      assert forall k | 0 <= k < |r.list| :: r.list[k].id == ItemIds(r.list)[k] == ItemIds(items.list)[k];
    } else {
      assert forall k | 1 <= k < |r.list| :: r.list[k] == items.list[k - 1];
    }
  }

  /** Everything addAssembly checks before it registers anything. */
  ghost predicate AssemblyAccepted(inv: Inventory, id: Id, capacity: int, components: seq<Item>) {
    && ValidAssemblyId(id)
    && capacity >= 0
    && LookupAssembly(inv, id).None?
    && forall k | 0 <= k < |components| :: ValidItem(inv, components[k].id) && components[k].quantity > 0
  }

  /** addAssembly ID capacity [componentID qty]...: all or nothing. */
  function AddAssemblyCommand(inv: Inventory, id: Id, capacity: int, components: seq<Item>): (r: Inventory)
    ensures !AssemblyAccepted(inv, id, capacity, components) ==> r == inv
    ensures AssemblyAccepted(inv, id, capacity, components) ==>
      && |r.assemblies| == |inv.assemblies| + 1
      && r.assemblies[1..] == inv.assemblies
      && r.assemblies[0].id == id
      && r.assemblies[0].capacity == capacity
      && r.assemblies[0].onHand == 0
      && ItemsOk(r.assemblies[0].items)
      && (forall x :: Qty(r.assemblies[0].items.list, x) == Qty(components, x))
      && r.assemblyCount == inv.assemblyCount + 1
      && r.parts == inv.parts && r.partCount == inv.partCount
    ensures Valid(inv) ==> Valid(r)
  {
    if !ValidAssemblyId(id) then inv
    else match BuildBom(inv, components, NoItems)
      case None => inv
      case Some(items) => AddAssembly(inv, id, capacity, items)
  }

  /** The fulfillOrder loop: make for each `assemblyID qty` pair in order,
      into one shortage list; `valid` turns false at the first pair with a
      non-positive quantity or an unknown assembly, and the loop stops. */
  datatype Progress = Progress(state: State, valid: bool)

  ghost predicate OrderLineOk(inv: Inventory, line: Item) {
    line.quantity > 0 && LookupAssembly(inv, line.id).Some?
  }

  function FulfillFrom(s: State, order: seq<Item>): (r: Progress)
    requires Valid(s.inv)
    ensures Valid(r.state.inv) && SameShape(s.inv, r.state.inv) && Grows(s, r.state)
    ensures ShortagesOk(s.inv.parts, s.needed) ==> ShortagesOk(r.state.inv.parts, r.state.needed)
    ensures r.valid <==> forall k | 0 <= k < |order| :: OrderLineOk(s.inv, order[k])
    decreases |order|
  {
    if |order| == 0 then Progress(s, true)
    else
      var s1 := Make(s, order[0].id, order[0].quantity);
      SameShapeLookups(s.inv, s1.inv);
      if order[0].quantity <= 0 || LookupAssembly(s1.inv, order[0].id).None? then Progress(s1, false)
      else
        var r := FulfillFrom(s1, order[1..]);
        OrderStep(s.inv, s1.inv, order, r.valid);
        r
  }

  /** The validity of an order carried from its tail, checked against an
      inventory of the same shape, to the whole order. */
  lemma {:induction false} OrderStep(inv: Inventory, inv1: Inventory, order: seq<Item>, valid: bool)
    requires |order| > 0 && OrderLineOk(inv, order[0])
    requires forall c :: LookupAssembly(inv1, c) == LookupAssembly(inv, c)
    requires valid <==> forall k | 0 <= k < |order[1..]| :: OrderLineOk(inv1, order[1..][k])
    ensures valid <==> forall k | 0 <= k < |order| :: OrderLineOk(inv, order[k])
  {
    assert forall k | 1 <= k < |order| :: order[1..][k - 1] == order[k];
  }

  /** fulfillOrder (assemblyID qty)+: the shortages are printed only when
      every pair was valid and some part is short. */
  function FulfillOrder(inv: Inventory, order: seq<Item>): (r: Reply)
    requires Valid(inv)
    ensures Valid(r.inv) && SameShape(inv, r.inv)
    ensures var p := FulfillFrom(State(inv, NoItems, []), order);
      && r.inv == p.state.inv
      && (r.report.Some? <==> p.valid && |p.state.needed.list| > 0)
      && (r.report.Some? ==> r.report.value == p.state.needed)
    ensures r.report.Some? ==>
      && (forall k | 0 <= k < |order| :: OrderLineOk(inv, order[k]))
      && |r.report.value.list| > 0
      && ShortagesOk(inv.parts, r.report.value)
    ensures (exists k | 0 <= k < |order| :: !OrderLineOk(inv, order[k])) ==> r.report.None?
  {
    var p := FulfillFrom(State(inv, NoItems, []), order);
    Reply(p.state.inv, p.state.log, Report(p.state.needed, p.valid))
  }

  /** stock ID n */
  function StockCommand(inv: Inventory, id: Id, n: int): (r: Reply)
    requires Valid(inv)
    ensures Valid(r.inv) && SameShape(inv, r.inv)
    ensures r.report.Some? ==> |r.report.value.list| > 0 && ShortagesOk(inv.parts, r.report.value)
    ensures var s := Stock(State(inv, NoItems, []), id, n);
      && r.inv == s.inv
      && (r.report.Some? <==> |s.needed.list| > 0)
      && (r.report.Some? ==> r.report.value == s.needed)
    ensures LookupAssembly(inv, id).Some? && n > 0 ==>
      var a := inv.assemblies[LookupAssembly(inv, id).value];
      r.inv.assemblies[LookupAssembly(inv, id).value].onHand == Min(a.onHand + n, a.capacity)
    ensures n <= 0 || LookupAssembly(inv, id).None? ==> r == Reply(inv, [], None)
  {
    var s := Stock(State(inv, NoItems, []), id, n);
    Reply(s.inv, s.log, Report(s.needed, true))
  }

  /** restock [ID]: no argument restocks every assembly, one argument that
      assembly, more arguments nothing. */
  function RestockCommand(inv: Inventory, args: seq<Id>): (r: Reply)
    requires Valid(inv)
    ensures Valid(r.inv) && SameShape(inv, r.inv)
    ensures r.report.Some? ==> |r.report.value.list| > 0 && ShortagesOk(inv.parts, r.report.value)
    ensures |args| == 0 ==> forall j | 0 <= j < |r.inv.assemblies| :: !BelowThreshold(r.inv.assemblies[j])
    ensures |args| <= 1 ==>
      var s := if |args| == 0 then RestockAll(State(inv, NoItems, [])) else Restock(State(inv, NoItems, []), args[0]);
      && r.inv == s.inv
      && (r.report.Some? <==> |s.needed.list| > 0)
      && (r.report.Some? ==> r.report.value == s.needed)
    ensures |args| > 1 ==> r == Reply(inv, [], None)
  {
    if |args| == 0 then
      var s := RestockAll(State(inv, NoItems, []));
      Reply(s.inv, s.log, Report(s.needed, true))
    else if |args| == 1 then
      var s := Restock(State(inv, NoItems, []), args[0]);
      Reply(s.inv, s.log, Report(s.needed, true))
    else Reply(inv, [], None)
  }

  /** empty ID: on_hand := 0 for a registered assembly; an id without the
      'A' prefix or not registered changes nothing. */
  function EmptyCommand(inv: Inventory, id: Id): (r: Inventory)
    ensures !IsAssemblyId(id) || LookupAssembly(inv, id).None? ==> r == inv
    ensures IsAssemblyId(id) && LookupAssembly(inv, id).Some? ==>
      var i := LookupAssembly(inv, id).value;
      && SameShape(inv, r)
      && r.assemblies[i].onHand == 0
      && forall j | 0 <= j < |inv.assemblies| && j != i :: r.assemblies[j] == inv.assemblies[j]
    ensures Valid(inv) ==> Valid(r)
  {
    if !IsAssemblyId(id) then inv
    else match LookupAssembly(inv, id)
      case None => inv
      case Some(i) => SetOnHand(inv, i, 0)
  }

  /** A parsed request line. `report` stands for the requests that only
      print (inventory, parts, help, an unknown command). */
  datatype Request =
    | addPart(id: Id)
    | addAssembly(id: Id, capacity: int, components: seq<Item>)
    | fulfillOrder(order: seq<Item>)
    | stock(id: Id, n: int)
    | restock(args: seq<Id>)
    | empty(id: Id)
    | clear
    | report
    | quit

  /** One pass of process_request. */
  function Step(inv: Inventory, req: Request): (r: Reply)
    requires Valid(inv)
    ensures Valid(r.inv)
  {
    match req
    case addPart(id) => Reply(AddPartCommand(inv, id), [], None)
    case addAssembly(id, capacity, components) => Reply(AddAssemblyCommand(inv, id, capacity, components), [], None)
    case fulfillOrder(order) => FulfillOrder(inv, order)
    case stock(id, n) => StockCommand(inv, id, n)
    case restock(args) => RestockCommand(inv, args)
    case empty(id) => Reply(EmptyCommand(inv, id), [], None)
    case clear => EmptyInventoryValid(); Reply(EmptyInventory, [], None)
    case report => Reply(inv, [], None)
    case quit => Reply(inv, [], None)
  }

  /** The request loop of main: process requests until quit or the end. */
  function Run(inv: Inventory, reqs: seq<Request>): (r: Inventory)
    requires Valid(inv)
    ensures Valid(r)
    decreases |reqs|
  {
    if |reqs| == 0 || reqs[0].quit? then inv
    else Run(Step(inv, reqs[0]).inv, reqs[1..])
  }

  /** Whatever requests are processed from the empty start, every assembly
      keeps 0 <= on_hand <= capacity and the counters count distinct ids. */
  lemma OnHandWithinCapacity(reqs: seq<Request>)
    ensures var inv := Run(EmptyInventory, reqs);
      && (forall j | 0 <= j < |inv.assemblies| :: 0 <= inv.assemblies[j].onHand <= inv.assemblies[j].capacity)
      && inv.partCount == |set id | id in PartIds(inv.parts)|
      && inv.assemblyCount == |set id | id in AssemblyIds(inv.assemblies)|
  {
    EmptyInventoryValid();
    CountsAreDistinct(Run(EmptyInventory, reqs));
  }
}

=== FILE: demand.dfy ===
// The demand resolver: make, get, stock and restock.

/** MAKE/GET and STOCK/RESTOCK of inventory.c as pure functions on a State:
    the inventory, the shortage list every nested call adds to (the shared
    `parts` pointer of the C code), and the ">>> ..." lines printed so far.

    Termination: a bill of materials names only assemblies registered
    earlier, which sit further down the head-prepended assembly list
    (`Catalog.Valid`). The measure is the rank |assemblies| - index of the
    assembly being resolved, then Get > Make > Expand, then the number of
    bill-of-materials lines still to expand. */
module Demand {
  import opened Ids
  import opened Catalog

  /** The two kinds of progress line the resolver prints. */
  datatype Event =
    | Manufacture(units: int, id: Id)   // ">>> make %d units of assembly %s"
    | Restocking(id: Id, units: int)    // ">>> restocking assembly %s with %d items"

  datatype State = State(inv: Inventory, needed: ItemsNeeded, log: seq<Event>)

  /** A well-formed shortage list: counted, no id twice, positive amounts,
      and only registered part ids. */
  ghost predicate ShortagesOk(parts: seq<Part>, needed: ItemsNeeded) {
    && ItemsOk(needed)
    && Positive(needed.list)
    && forall k | 0 <= k < |needed.list| ::
         ValidPartId(needed.list[k].id) && needed.list[k].id in PartIds(parts)
  }

  /** What a resolver call may do to the outputs: append to the log and
      raise shortage totals. */
  ghost predicate Grows(s: State, r: State) {
    && s.log <= r.log
    && forall x {:trigger Qty(r.needed.list, x)} :: Qty(s.needed.list, x) <= Qty(r.needed.list, x)
  }

  /** Assemblies before index m are untouched. */
  ghost predicate UnchangedBefore(inv: Inventory, inv': Inventory, m: int) {
    forall j | 0 <= j < m && j < |inv.assemblies| && j < |inv'.assemblies| ::
      inv'.assemblies[j] == inv.assemblies[j]
  }

  /** Termination measure: 0 for an unknown id, otherwise the number of
      assemblies from this one to the tail of the list. */
  function Rank(inv: Inventory, id: Id): nat {
    match LookupAssembly(inv, id)
    case None => 0
    case Some(i) => |inv.assemblies| - i
  }

  /** Set the on_hand of the assembly at index i inside a state. */
  function WithOnHand(s: State, i: nat, v: int): State
    requires i < |s.inv.assemblies|
  {
    s.(inv := SetOnHand(s.inv, i, v))
  }

  /** get: take n units of `id` from stock, making whatever stock lacks.
      A non-positive n or an unknown id changes nothing. */
  function Get(s: State, id: Id, n: int): (r: State)
    requires Valid(s.inv)
    ensures Valid(r.inv) && SameShape(s.inv, r.inv) && Grows(s, r)
    ensures ShortagesOk(s.inv.parts, s.needed) ==> ShortagesOk(r.inv.parts, r.needed)
    ensures n <= 0 || LookupAssembly(s.inv, id).None? ==> r == s
    ensures LookupAssembly(s.inv, id).Some? ==>
      var i := LookupAssembly(s.inv, id).value;
      var onHand := s.inv.assemblies[i].onHand;
      && UnchangedBefore(s.inv, r.inv, i)
      && (n > 0 ==> r.inv.assemblies[i].onHand == (if onHand >= n then onHand - n else 0))
      && (0 < n <= onHand ==> r == WithOnHand(s, i, onHand - n))
      && (n > onHand ==> |r.log| > |s.log| && r.log[|s.log|] == Manufacture(n - onHand, id))
    decreases Rank(s.inv, id), 2, 0, 0
  {
    if n <= 0 then s
    else match LookupAssembly(s.inv, id)
      case None => s
      case Some(i) =>
        var onHand := s.inv.assemblies[i].onHand;
        if onHand >= n then WithOnHand(s, i, onHand - n)
        else
          var s1 := WithOnHand(s, i, 0);
          SameShapeLookups(s.inv, s1.inv);
          Make(s1, id, n - onHand)
  }

  /** make: manufacture what an order of n units of `id` needs beyond the
      stock on hand. When n >= on_hand the stock is used up, a make line is
      printed (even for 0 units) and the bill of materials is expanded for
      n - on_hand units if that is positive; otherwise on_hand drops by n. */
  function Make(s: State, id: Id, n: int): (r: State)
    requires Valid(s.inv)
    ensures Valid(r.inv) && SameShape(s.inv, r.inv) && Grows(s, r)
    ensures ShortagesOk(s.inv.parts, s.needed) ==> ShortagesOk(r.inv.parts, r.needed)
    ensures n <= 0 || LookupAssembly(s.inv, id).None? ==> r == s
    ensures LookupAssembly(s.inv, id).Some? ==>
      var i := LookupAssembly(s.inv, id).value;
      var onHand := s.inv.assemblies[i].onHand;
      && UnchangedBefore(s.inv, r.inv, i)
      && (n > 0 ==> r.inv.assemblies[i].onHand == (if n >= onHand then 0 else onHand - n))
      && (0 < n < onHand ==> r == WithOnHand(s, i, onHand - n))
      && (0 < n && onHand <= n ==> |r.log| > |s.log| && r.log[|s.log|] == Manufacture(n - onHand, id))
      && (0 < n == onHand ==> r == State(SetOnHand(s.inv, i, 0), s.needed, s.log + [Manufacture(0, id)]))
    decreases Rank(s.inv, id), 1, 0, 0
  {
    if n <= 0 then s
    else match LookupAssembly(s.inv, id)
      case None => s
      case Some(i) =>
        var onHand := s.inv.assemblies[i].onHand;
        if n >= onHand then
          var toMake := n - onHand;
          var s1 := State(SetOnHand(s.inv, i, 0), s.needed, s.log + [Manufacture(toMake, id)]);
          if toMake > 0 then Expand(s1, i, 0, toMake) else s1
        else WithOnHand(s, i, onHand - n)
  }

  /** The loop over the bill of materials of the assembly at index i, from
      line k on, for `amount` units. */
  function Expand(s: State, i: nat, k: nat, amount: int): (r: State)
    requires Valid(s.inv) && i < |s.inv.assemblies|
    requires k <= |s.inv.assemblies[i].items.list| && amount > 0
    ensures Valid(r.inv) && SameShape(s.inv, r.inv) && Grows(s, r)
    ensures ShortagesOk(s.inv.parts, s.needed) ==> ShortagesOk(r.inv.parts, r.needed)
    ensures UnchangedBefore(s.inv, r.inv, i + 1)
    decreases |s.inv.assemblies| - i, 0, |s.inv.assemblies[i].items.list| - k, 1
  {
    if k == |s.inv.assemblies[i].items.list| then s
    else Expand(ExpandLine(s, i, k, amount), i, k + 1, amount)
  }

  /** One pass of that loop, on line k: a part's quantity times amount goes
      to the shortage list, a sub-assembly's goes through Get. */
  function ExpandLine(s: State, i: nat, k: nat, amount: int): (r: State)
    requires Valid(s.inv) && i < |s.inv.assemblies|
    requires k < |s.inv.assemblies[i].items.list| && amount > 0
    ensures Valid(r.inv) && SameShape(s.inv, r.inv) && Grows(s, r)
    ensures ShortagesOk(s.inv.parts, s.needed) ==> ShortagesOk(r.inv.parts, r.needed)
    ensures UnchangedBefore(s.inv, r.inv, i + 1)
    decreases |s.inv.assemblies| - i, 0, |s.inv.assemblies[i].items.list| - k, 0
  {
    var line := s.inv.assemblies[i].items.list[k];
    assert BomOk(s.inv, i);
    assert ComponentOk(s.inv, i, line.id);
    var q := line.quantity * amount;
    assert q > 0;
    if IsPartId(line.id) then s.(needed := AddItem(s.inv, s.needed, line.id, q))
    else if IsAssemblyId(line.id) then Get(s, line.id, q)
    else s
  }

  function Min(a: int, b: int): int {
    if a <= b then a else b
  }

  /** stock: add n units of `id`, capped at its capacity, and expand the bill
      of materials for the units actually added. Nothing is printed or
      expanded when that amount is 0. */
  function Stock(s: State, id: Id, n: int): (r: State)
    requires Valid(s.inv)
    ensures Valid(r.inv) && SameShape(s.inv, r.inv) && Grows(s, r)
    ensures ShortagesOk(s.inv.parts, s.needed) ==> ShortagesOk(r.inv.parts, r.needed)
    ensures n <= 0 || LookupAssembly(s.inv, id).None? ==> r == s
    ensures LookupAssembly(s.inv, id).Some? ==>
      var i := LookupAssembly(s.inv, id).value;
      var a := s.inv.assemblies[i];
      && UnchangedBefore(s.inv, r.inv, i)
      && (n > 0 ==> r.inv.assemblies[i].onHand == Min(a.onHand + n, a.capacity))
      && (n > 0 && a.onHand == a.capacity ==> r == s)
      && (n > 0 && a.onHand < a.capacity ==>
            |r.log| > |s.log| && r.log[|s.log|] == Manufacture(Min(n, a.capacity - a.onHand), id))
  {
    if n <= 0 then s
    else match LookupAssembly(s.inv, id)
      case None => s
      case Some(i) => StockAt(s, i, n)
  }

  /** The work of stock once the id is found at index i. */
  function StockAt(s: State, i: nat, n: int): (r: State)
    requires Valid(s.inv) && i < |s.inv.assemblies| && n > 0
    ensures Valid(r.inv) && SameShape(s.inv, r.inv) && Grows(s, r)
    ensures ShortagesOk(s.inv.parts, s.needed) ==> ShortagesOk(r.inv.parts, r.needed)
    ensures var a := s.inv.assemblies[i];
      && UnchangedBefore(s.inv, r.inv, i)
      && r.inv.assemblies[i].onHand == Min(a.onHand + n, a.capacity)
      && (a.onHand == a.capacity ==> r == s)
      && (a.onHand < a.capacity ==>
            |r.log| > |s.log| && r.log[|s.log|] == Manufacture(Min(n, a.capacity - a.onHand), a.id))
  {
    var a := s.inv.assemblies[i];
    var amount := if a.onHand + n > a.capacity then a.capacity - a.onHand else n;
    var onHand' := if a.onHand + n > a.capacity then a.capacity else a.onHand + n;
    var log' := if amount != 0 then s.log + [Manufacture(amount, a.id)] else s.log;
    var s1 := State(SetOnHand(s.inv, i, onHand'), s.needed, log');
    if amount > 0 then Expand(s1, i, 0, amount) else s1
  }

  /** The threshold test `on_hand < capacity / 2.0`, exact over integers. */
  predicate BelowThreshold(a: Assembly) {
    2 * a.onHand < a.capacity
  }

  /** One step of restock on the assembly at index i: below the threshold it
      is stocked with capacity - on_hand units (after the restocking line),
      which fills it; otherwise nothing happens. The code passes the
      assembly's id to stock, whose lookup finds this same assembly since ids
      are distinct; `DemandProps.RestockAtIsStock` proves the two agree. */
  function RestockAt(s: State, i: nat): (r: State)
    requires Valid(s.inv) && i < |s.inv.assemblies|
    ensures Valid(r.inv) && SameShape(s.inv, r.inv) && Grows(s, r)
    ensures ShortagesOk(s.inv.parts, s.needed) ==> ShortagesOk(r.inv.parts, r.needed)
    ensures UnchangedBefore(s.inv, r.inv, i)
    ensures !BelowThreshold(s.inv.assemblies[i]) ==> r == s
    ensures BelowThreshold(s.inv.assemblies[i]) ==>
      && r.inv.assemblies[i].onHand == r.inv.assemblies[i].capacity
      && |r.log| > |s.log|
      && r.log[|s.log|] == Restocking(s.inv.assemblies[i].id,
                                      s.inv.assemblies[i].capacity - s.inv.assemblies[i].onHand)
  {
    var a := s.inv.assemblies[i];
    if BelowThreshold(a) then
      var amount := a.capacity - a.onHand;
      StockAt(State(s.inv, s.needed, s.log + [Restocking(a.id, amount)]), i, amount)
    else s
  }

  /** restock ID: an unknown id changes nothing; a known one takes one
      restock step. */
  function Restock(s: State, id: Id): (r: State)
    requires Valid(s.inv)
    ensures Valid(r.inv) && SameShape(s.inv, r.inv) && Grows(s, r)
    ensures ShortagesOk(s.inv.parts, s.needed) ==> ShortagesOk(r.inv.parts, r.needed)
    ensures LookupAssembly(s.inv, id).None? ==> r == s
    ensures LookupAssembly(s.inv, id).Some? ==>
      var i := LookupAssembly(s.inv, id).value;
      var a := s.inv.assemblies[i];
      && (BelowThreshold(a) ==>
            && r.inv.assemblies[i].onHand == a.capacity
            && |r.log| > |s.log|
            && r.log[|s.log|] == Restocking(id, a.capacity - a.onHand))
      && (!BelowThreshold(a) ==> r == s)
  {
    match LookupAssembly(s.inv, id)
    case None => s
    case Some(i) => RestockAt(s, i)
  }

  /** The restock ALL loop from list position k to the tail. Every assembly
      it has passed is at or above the threshold when it ends: a later step
      only draws on assemblies further down the list. */
  function RestockFrom(s: State, k: nat): (r: State)
    requires Valid(s.inv) && k <= |s.inv.assemblies|
    ensures Valid(r.inv) && SameShape(s.inv, r.inv) && Grows(s, r)
    ensures ShortagesOk(s.inv.parts, s.needed) ==> ShortagesOk(r.inv.parts, r.needed)
    ensures UnchangedBefore(s.inv, r.inv, k)
    ensures forall j | k <= j < |r.inv.assemblies| :: !BelowThreshold(r.inv.assemblies[j])
    decreases |s.inv.assemblies| - k
  {
    if k == |s.inv.assemblies| then s
    else RestockFrom(RestockAt(s, k), k + 1)
  }

  /** restock with no id: the whole assembly list, head first, so the most
      recently registered assembly first. */
  function RestockAll(s: State): (r: State)
    requires Valid(s.inv)
    ensures Valid(r.inv) && SameShape(s.inv, r.inv) && Grows(s, r)
    ensures ShortagesOk(s.inv.parts, s.needed) ==> ShortagesOk(r.inv.parts, r.needed)
    ensures forall j | 0 <= j < |r.inv.assemblies| :: !BelowThreshold(r.inv.assemblies[j])
  {
    RestockFrom(s, 0)
  }
}

=== FILE: demand_props.dfy ===
// Properties relating the resolver operations to each other and to an
// independent definition of the flattened bill of materials.

module DemandProps {
  import opened Ids
  import opened Catalog
  import opened Demand

  /** make and get leave the same inventory and the same shortages; their
      printed lines differ only when the order equals the stock on hand,
      where make alone prints "make 0 units". */
  lemma MakeMatchesGet(s: State, id: Id, n: int)
    requires Valid(s.inv)
    ensures Make(s, id, n).inv == Get(s, id, n).inv
    ensures Make(s, id, n).needed == Get(s, id, n).needed
    ensures LookupAssembly(s.inv, id).Some? && n > 0 &&
            n == s.inv.assemblies[LookupAssembly(s.inv, id).value].onHand ==>
      Make(s, id, n).log == Get(s, id, n).log + [Manufacture(0, id)]
    ensures LookupAssembly(s.inv, id).None? || n <= 0 ||
            n != s.inv.assemblies[LookupAssembly(s.inv, id).value].onHand ==>
      Make(s, id, n).log == Get(s, id, n).log
  {
    if n > 0 && LookupAssembly(s.inv, id).Some? {
      var i := LookupAssembly(s.inv, id).value;
      var onHand := s.inv.assemblies[i].onHand;
      if onHand < n {
        var s1 := WithOnHand(s, i, 0);
        SameShapeLookups(s.inv, s1.inv);
        assert SetOnHand(s1.inv, i, 0) == s1.inv;
        assert Get(s, id, n) == Make(s1, id, n - onHand);
      }
    }
  }

  /** Taking n units that are on hand and then stocking n units gives the
      old on_hand back. For other n see `GetThenStockOnHand`. */
  lemma GetThenStock(s: State, id: Id, n: int)
    requires Valid(s.inv) && LookupAssembly(s.inv, id).Some?
    requires 0 < n <= s.inv.assemblies[LookupAssembly(s.inv, id).value].onHand
    ensures var i := LookupAssembly(s.inv, id).value;
      Stock(Get(s, id, n), id, n).inv.assemblies[i].onHand == s.inv.assemblies[i].onHand
  {
    var g := Get(s, id, n);
    SameShapeLookups(s.inv, g.inv);
  }

  /** get of n > 0 units followed by stock of n units, for any n: on_hand
      comes back when stock covered the request, and otherwise get emptied
      the assembly and stock fills it to min(n, capacity). So the old
      on_hand is restored exactly when n <= on_hand or the assembly was
      full. */
  lemma GetThenStockOnHand(s: State, id: Id, n: int)
    requires Valid(s.inv) && LookupAssembly(s.inv, id).Some? && n > 0
    ensures var i := LookupAssembly(s.inv, id).value;
      var a := s.inv.assemblies[i];
      && Stock(Get(s, id, n), id, n).inv.assemblies[i].onHand
           == (if n <= a.onHand then a.onHand else Min(n, a.capacity))
      && ((Stock(Get(s, id, n), id, n).inv.assemblies[i].onHand == a.onHand) <==> (n <= a.onHand || a.onHand == a.capacity))
  {
    SameShapeLookups(s.inv, Get(s, id, n).inv);
  }

  /** Restock ALL once more after restock ALL finds nothing below the
      threshold and changes nothing. */
  lemma RestockAllIdempotent(s: State)
    requires Valid(s.inv)
    ensures RestockAll(RestockAll(s)) == RestockAll(s)
  {
    RestockFromSettled(RestockAll(s), 0);
  }

  lemma {:induction false} RestockFromSettled(s: State, k: nat)
    requires Valid(s.inv) && k <= |s.inv.assemblies|
    requires forall j | k <= j < |s.inv.assemblies| :: !BelowThreshold(s.inv.assemblies[j])
    ensures RestockFrom(s, k) == s
    decreases |s.inv.assemblies| - k
  {
    if k < |s.inv.assemblies| {
      assert RestockAt(s, k) == s;
      RestockFromSettled(s, k + 1);
    }
  }

  /** Nothing of any assembly is on hand. */
  ghost predicate NoStock(inv: Inventory) {
    forall j | 0 <= j < |inv.assemblies| :: inv.assemblies[j].onHand == 0
  }

  /** Nothing is on hand from list position m to the tail: no assembly that
      the assembly at m - 1 can draw on, directly or through sub-assemblies,
      has stock. */
  ghost predicate NoStockFrom(inv: Inventory, m: int) {
    forall j | 0 <= j < |inv.assemblies| && m <= j :: inv.assemblies[j].onHand == 0
  }

  /** The flattened bill of materials: how many units of part p one unit of
      the assembly at index i consumes, through every level of
      sub-assemblies. */
  function Explode(inv: Inventory, i: nat, p: Id): int
    requires Valid(inv) && i < |inv.assemblies|
    decreases |inv.assemblies| - i, 1, 0
  {
    ExplodeLines(inv, i, 0, p)
  }

  /** The share of Explode contributed by bill-of-materials lines k.. */
  function ExplodeLines(inv: Inventory, i: nat, k: nat, p: Id): int
    requires Valid(inv) && i < |inv.assemblies| && k <= |inv.assemblies[i].items.list|
    decreases |inv.assemblies| - i, 0, |inv.assemblies[i].items.list| - k
  {
    var list := inv.assemblies[i].items.list;
    if k == |list| then 0
    else
      var line := list[k];
      assert BomOk(inv, i) && ComponentOk(inv, i, line.id);
      var here :=
        if IsPartId(line.id) then (if line.id == p then line.quantity else 0)
        else if IsAssemblyId(line.id) then line.quantity * Explode(inv, LookupAssembly(inv, line.id).value, p)
        else 0;
      here + ExplodeLines(inv, i, k + 1, p)
  }

  /** The flattened bill of materials does not depend on what is on hand. */
  lemma {:induction false} ExplodeSameShape(a: Inventory, b: Inventory, i: nat, p: Id)
    requires Valid(a) && Valid(b) && SameShape(a, b) && i < |a.assemblies|
    ensures Explode(a, i, p) == Explode(b, i, p)
    decreases |a.assemblies| - i, 1, 0
  {
    ExplodeLinesSameShape(a, b, i, 0, p);
  }

  lemma {:induction false} ExplodeLinesSameShape(a: Inventory, b: Inventory, i: nat, k: nat, p: Id)
    requires Valid(a) && Valid(b) && SameShape(a, b) && i < |a.assemblies|
    requires k <= |a.assemblies[i].items.list|
    ensures ExplodeLines(a, i, k, p) == ExplodeLines(b, i, k, p)
    decreases |a.assemblies| - i, 0, |a.assemblies[i].items.list| - k
  {
    var list := a.assemblies[i].items.list;
    if k < |list| {
      var line := list[k];
      assert BomOk(a, i) && ComponentOk(a, i, line.id);
      SameShapeLookups(a, b);
      ExplodeLinesSameShape(a, b, i, k + 1, p);
      if !IsPartId(line.id) && IsAssemblyId(line.id) {
        ExplodeSameShape(a, b, LookupAssembly(a, line.id).value, p);
      }
    }
  }

  /** get of n units of the assembly at index i when nothing is on hand
      further down the list: on_hand drops by n or to 0, and the shortage
      list grows by the units made, n - on_hand if positive, times the
      flattened bill of materials. */
  lemma {:induction false} GetNoStock(s: State, id: Id, n: int, p: Id)
    requires Valid(s.inv) && n > 0 && LookupAssembly(s.inv, id).Some?
    requires NoStockFrom(s.inv, LookupAssembly(s.inv, id).value + 1)
    ensures var i := LookupAssembly(s.inv, id).value;
            var onHand := s.inv.assemblies[i].onHand;
      && Get(s, id, n).inv == SetOnHand(s.inv, i, if onHand >= n then onHand - n else 0)
      && Qty(Get(s, id, n).needed.list, p)
         == Qty(s.needed.list, p) + (if onHand >= n then 0 else n - onHand) * Explode(s.inv, i, p)
    decreases Rank(s.inv, id), 2, 0, 0
  {
    GetNoStockAt(s, id, LookupAssembly(s.inv, id).value, n, p);
  }

  /** GetNoStock with the index of the assembly named. */
  lemma {:induction false} GetNoStockAt(s: State, id: Id, i: nat, n: int, p: Id)
    requires Valid(s.inv) && n > 0 && LookupAssembly(s.inv, id) == Some(i) && NoStockFrom(s.inv, i + 1)
    ensures && Get(s, id, n).inv
               == SetOnHand(s.inv, i, if s.inv.assemblies[i].onHand >= n then s.inv.assemblies[i].onHand - n else 0)
            && Qty(Get(s, id, n).needed.list, p)
               == Qty(s.needed.list, p)
                  + (if s.inv.assemblies[i].onHand >= n then 0 else n - s.inv.assemblies[i].onHand) * Explode(s.inv, i, p)
    decreases |s.inv.assemblies| - i, 1, 2, 0
  {
    if s.inv.assemblies[i].onHand < n {
      GetNoStockShort(s, id, i, n, p);
      ScaleWhen(Qty(Get(s, id, n).needed.list, p), Qty(s.needed.list, p),
                true, n - s.inv.assemblies[i].onHand, Explode(s.inv, i, p));
    } else {
      GetCovered(s, id, i, n);
      ScaleWhen(Qty(Get(s, id, n).needed.list, p), Qty(s.needed.list, p),
                false, n - s.inv.assemblies[i].onHand, Explode(s.inv, i, p));
    }
  }

  /** get when stock covers the request only lowers on_hand. */
  lemma {:induction false} GetCovered(s: State, id: Id, i: nat, n: int)
    requires Valid(s.inv) && n > 0 && LookupAssembly(s.inv, id) == Some(i) && s.inv.assemblies[i].onHand >= n
    ensures Get(s, id, n) == WithOnHand(s, i, s.inv.assemblies[i].onHand - n)
  {
  }

  /** The branch of GetNoStock where stock falls short: on_hand goes to 0
      and make builds the rest. */
  lemma GetNoStockShort(s: State, id: Id, i: nat, n: int, p: Id)
    requires Valid(s.inv) && LookupAssembly(s.inv, id) == Some(i)
    requires n > s.inv.assemblies[i].onHand && NoStockFrom(s.inv, i + 1)
    ensures Get(s, id, n).inv == SetOnHand(s.inv, i, 0)
    ensures Qty(Get(s, id, n).needed.list, p)
         == Qty(s.needed.list, p) + (n - s.inv.assemblies[i].onHand) * Explode(s.inv, i, p)
    decreases |s.inv.assemblies| - i, 1, 1, 0
  {
    GetIsMake(s, id, i, n);
    GetShortMake(s, id, i, n, p);
  }

  /** get when stock falls short zeroes on_hand and makes the rest. */
  lemma {:induction false} GetIsMake(s: State, id: Id, i: nat, n: int)
    requires Valid(s.inv) && LookupAssembly(s.inv, id) == Some(i)
    requires n > s.inv.assemblies[i].onHand
    ensures Get(s, id, n) == Make(WithOnHand(s, i, 0), id, n - s.inv.assemblies[i].onHand)
  {
    GetWith(s, id, i, n, n - s.inv.assemblies[i].onHand);
  }

  /** GetIsMake once the shortfall is named. */
  lemma {:induction false} GetWith(s: State, id: Id, i: nat, n: int, short: int)
    requires Valid(s.inv) && LookupAssembly(s.inv, id) == Some(i)
    requires short == n - s.inv.assemblies[i].onHand && short > 0
    ensures Get(s, id, n) == Make(WithOnHand(s, i, 0), id, short)
  {
  }

  /** The make that get performs, from the emptied state. */
  lemma {:induction false} GetShortMake(s: State, id: Id, i: nat, n: int, p: Id)
    requires Valid(s.inv) && LookupAssembly(s.inv, id) == Some(i)
    requires n > s.inv.assemblies[i].onHand && NoStockFrom(s.inv, i + 1)
    ensures Valid(WithOnHand(s, i, 0).inv)
    ensures Make(WithOnHand(s, i, 0), id, n - s.inv.assemblies[i].onHand).inv == SetOnHand(s.inv, i, 0)
    ensures Qty(Make(WithOnHand(s, i, 0), id, n - s.inv.assemblies[i].onHand).needed.list, p)
         == Qty(s.needed.list, p) + (n - s.inv.assemblies[i].onHand) * Explode(s.inv, i, p)
    decreases |s.inv.assemblies| - i, 1, 0, 0
  {
    GetEmptied(s, id, i, n, p);
    MakeNoStockBuild(WithOnHand(s, i, 0), id, i, n - s.inv.assemblies[i].onHand, p);
    Rescale(Qty(Make(WithOnHand(s, i, 0), id, n - s.inv.assemblies[i].onHand).needed.list, p), Qty(s.needed.list, p),
            n - s.inv.assemblies[i].onHand - WithOnHand(s, i, 0).inv.assemblies[i].onHand, n - s.inv.assemblies[i].onHand,
            Explode(WithOnHand(s, i, 0).inv, i, p), Explode(s.inv, i, p));
  }

  /** The emptied state get makes from still finds the assembly at index i
      and has the same flattened bill of materials. */
  lemma GetEmptied(s: State, id: Id, i: nat, n: int, p: Id)
    requires Valid(s.inv) && LookupAssembly(s.inv, id) == Some(i)
    requires n > s.inv.assemblies[i].onHand && NoStockFrom(s.inv, i + 1)
    ensures Valid(WithOnHand(s, i, 0).inv) && LookupAssembly(WithOnHand(s, i, 0).inv, id) == Some(i)
    ensures NoStockFrom(WithOnHand(s, i, 0).inv, i + 1)
    ensures WithOnHand(s, i, 0).inv.assemblies[i].onHand == 0
    ensures Explode(WithOnHand(s, i, 0).inv, i, p) == Explode(s.inv, i, p)
    ensures SetOnHand(WithOnHand(s, i, 0).inv, i, 0) == SetOnHand(s.inv, i, 0)
  {
    SameShapeLookups(s.inv, WithOnHand(s, i, 0).inv);
    ExplodeSameShape(s.inv, WithOnHand(s, i, 0).inv, i, p);
  }

  /** make, under the same condition: on_hand drops by n or to 0 and the
      shortage list grows by the units made times the flattened bill of
      materials. */
  lemma {:induction false} MakeNoStock(s: State, id: Id, n: int, p: Id)
    requires Valid(s.inv) && n > 0 && LookupAssembly(s.inv, id).Some?
    requires NoStockFrom(s.inv, LookupAssembly(s.inv, id).value + 1)
    ensures var i := LookupAssembly(s.inv, id).value;
            var onHand := s.inv.assemblies[i].onHand;
      && Make(s, id, n).inv == SetOnHand(s.inv, i, if n >= onHand then 0 else onHand - n)
      && Qty(Make(s, id, n).needed.list, p)
         == Qty(s.needed.list, p) + (if n >= onHand then n - onHand else 0) * Explode(s.inv, i, p)
    decreases Rank(s.inv, id), 1, 0, 0
  {
    MakeNoStockAt(s, id, LookupAssembly(s.inv, id).value, n, p);
  }

  /** MakeNoStock with the index of the assembly named. */
  lemma {:induction false} MakeNoStockAt(s: State, id: Id, i: nat, n: int, p: Id)
    requires Valid(s.inv) && n > 0 && LookupAssembly(s.inv, id) == Some(i) && NoStockFrom(s.inv, i + 1)
    ensures && Make(s, id, n).inv
               == SetOnHand(s.inv, i, if n >= s.inv.assemblies[i].onHand then 0 else s.inv.assemblies[i].onHand - n)
            && Qty(Make(s, id, n).needed.list, p)
               == Qty(s.needed.list, p)
                  + (if n >= s.inv.assemblies[i].onHand then n - s.inv.assemblies[i].onHand else 0) * Explode(s.inv, i, p)
    decreases |s.inv.assemblies| - i, 0, |s.inv.assemblies[i].items.list| + 2, 0
  {
    if n > s.inv.assemblies[i].onHand {
      MakeNoStockBuild(s, id, i, n, p);
      Rescale(Qty(Make(s, id, n).needed.list, p), Qty(s.needed.list, p), n - s.inv.assemblies[i].onHand,
              if n >= s.inv.assemblies[i].onHand then n - s.inv.assemblies[i].onHand else 0,
              Explode(s.inv, i, p), Explode(s.inv, i, p));
    } else {
      MakeNoStockKeep(s, id, i, n);
      Rescale(Qty(Make(s, id, n).needed.list, p), Qty(s.needed.list, p), 0,
              if n >= s.inv.assemblies[i].onHand then n - s.inv.assemblies[i].onHand else 0,
              Explode(s.inv, i, p), Explode(s.inv, i, p));
    }
  }

  /** The branch of MakeNoStock where units are built: on_hand goes to 0
      and the shortfall is expanded through the bill of materials. */
  lemma {:induction false} MakeNoStockBuild(s: State, id: Id, i: nat, n: int, p: Id)
    requires Valid(s.inv) && LookupAssembly(s.inv, id) == Some(i)
    requires n > s.inv.assemblies[i].onHand && NoStockFrom(s.inv, i + 1)
    ensures Make(s, id, n).inv == SetOnHand(s.inv, i, 0)
    ensures Qty(Make(s, id, n).needed.list, p)
         == Qty(s.needed.list, p) + (n - s.inv.assemblies[i].onHand) * Explode(s.inv, i, p)
    decreases |s.inv.assemblies| - i, 0, |s.inv.assemblies[i].items.list| + 1, 1
  {
    MakeUnfold(s, id, i, n);
    MakeExpansion(s, id, i, n, p);
  }

  /** The expansion make performs, under the same condition. */
  lemma MakeExpansion(s: State, id: Id, i: nat, n: int, p: Id)
    requires Valid(s.inv) && LookupAssembly(s.inv, id) == Some(i)
    requires n > s.inv.assemblies[i].onHand && NoStockFrom(s.inv, i + 1)
    ensures var s1 := State(SetOnHand(s.inv, i, 0), s.needed, s.log + [Manufacture(n - s.inv.assemblies[i].onHand, id)]);
      && Expand(s1, i, 0, n - s.inv.assemblies[i].onHand).inv == SetOnHand(s.inv, i, 0)
      && Qty(Expand(s1, i, 0, n - s.inv.assemblies[i].onHand).needed.list, p)
         == Qty(s.needed.list, p) + (n - s.inv.assemblies[i].onHand) * Explode(s.inv, i, p)
    decreases |s.inv.assemblies| - i, 0, |s.inv.assemblies[i].items.list| + 1, 0
  {
    var s1 := State(SetOnHand(s.inv, i, 0), s.needed, s.log + [Manufacture(n - s.inv.assemblies[i].onHand, id)]);
    ExpandNoStock(s1, i, 0, n - s.inv.assemblies[i].onHand, p);
    ExplodeSameShape(s.inv, s1.inv, i, p);
    assert Explode(s1.inv, i, p) == ExplodeLines(s1.inv, i, 0, p);
    Rescale(Qty(Expand(s1, i, 0, n - s.inv.assemblies[i].onHand).needed.list, p), Qty(s.needed.list, p),
            n - s.inv.assemblies[i].onHand, n - s.inv.assemblies[i].onHand,
            ExplodeLines(s1.inv, i, 0, p), Explode(s.inv, i, p));
  }

  /** make when it has to build: the shortfall goes through the bill of
      materials after on_hand is zeroed and the manufacture is logged. */
  lemma {:induction false} MakeUnfold(s: State, id: Id, i: nat, n: int)
    requires Valid(s.inv) && LookupAssembly(s.inv, id) == Some(i)
    requires n > s.inv.assemblies[i].onHand
    ensures Make(s, id, n)
         == Expand(State(SetOnHand(s.inv, i, 0), s.needed, s.log + [Manufacture(n - s.inv.assemblies[i].onHand, id)]),
                   i, 0, n - s.inv.assemblies[i].onHand)
  {
    MakeWith(s, id, i, n, n - s.inv.assemblies[i].onHand);
  }

  /** MakeUnfold once the number of units to build is named. */
  lemma {:induction false} MakeWith(s: State, id: Id, i: nat, n: int, toMake: int)
    requires Valid(s.inv) && LookupAssembly(s.inv, id) == Some(i)
    requires toMake == n - s.inv.assemblies[i].onHand && toMake > 0
    ensures Make(s, id, n) == Expand(State(SetOnHand(s.inv, i, 0), s.needed, s.log + [Manufacture(toMake, id)]), i, 0, toMake)
  {
  }

  /** The branch of MakeNoStock where stock covers the request: only
      on_hand changes. */
  lemma MakeNoStockKeep(s: State, id: Id, i: nat, n: int)
    requires Valid(s.inv) && LookupAssembly(s.inv, id) == Some(i)
    requires 0 < n <= s.inv.assemblies[i].onHand
    ensures Make(s, id, n).inv == SetOnHand(s.inv, i, s.inv.assemblies[i].onHand - n)
    ensures Make(s, id, n).needed == s.needed
  {
  }

  /** With nothing on hand anywhere, make of n > 0 units leaves the
      inventory as it was and adds n times the flattened bill of materials. */
  lemma MakeNoStockAll(s: State, id: Id, n: int, p: Id)
    requires Valid(s.inv) && NoStock(s.inv) && n > 0 && LookupAssembly(s.inv, id).Some?
    ensures Make(s, id, n).inv == s.inv
    ensures Qty(Make(s, id, n).needed.list, p)
         == Qty(s.needed.list, p) + n * Explode(s.inv, LookupAssembly(s.inv, id).value, p)
  {
    var i := LookupAssembly(s.inv, id).value;
    assert s.inv.assemblies[i].onHand == 0;
    assert NoStockFrom(s.inv, i + 1);
    MakeNoStock(s, id, n, p);
    assert SetOnHand(s.inv, i, 0) == s.inv;
  }

  /** The expansion of the assembly at index i from line k on, when nothing
      is on hand further down the list: the inventory is left as it is and
      the shortage list grows by `amount` times those lines' share of the
      flattened bill of materials. */
  lemma {:induction false} ExpandNoStock(s: State, i: nat, k: nat, amount: int, p: Id)
    requires Valid(s.inv) && NoStockFrom(s.inv, i + 1) && i < |s.inv.assemblies|
    requires k <= |s.inv.assemblies[i].items.list| && amount > 0
    ensures Expand(s, i, k, amount).inv == s.inv
    ensures Qty(Expand(s, i, k, amount).needed.list, p)
         == Qty(s.needed.list, p) + amount * ExplodeLines(s.inv, i, k, p)
    decreases |s.inv.assemblies| - i, 0, |s.inv.assemblies[i].items.list| - k, 1
  {
    var list := s.inv.assemblies[i].items.list;
    if k < |list| {
      assert BomOk(s.inv, i) && ComponentOk(s.inv, i, list[k].id);
      if IsPartId(list[k].id) {
        ExpandPartLine(s, i, k, amount, p);
      } else {
        ExpandAssemblyLine(s, i, k, amount, p);
      }
    }
  }

  /** Line k of the bill of materials, and the amount it asks for. */
  function LineAt(s: State, i: nat, k: nat): Item
    requires i < |s.inv.assemblies| && k < |s.inv.assemblies[i].items.list|
  {
    s.inv.assemblies[i].items.list[k]
  }

  lemma ExpandPartUnfold(s: State, i: nat, k: nat, amount: int)
    requires Valid(s.inv) && i < |s.inv.assemblies|
    requires k < |s.inv.assemblies[i].items.list| && amount > 0
    requires IsPartId(LineAt(s, i, k).id)
    ensures Expand(s, i, k, amount)
         == Expand(s.(needed := AddItem(s.inv, s.needed, LineAt(s, i, k).id, LineAt(s, i, k).quantity * amount)), i, k + 1, amount)
  {
  }

  /** One bill-of-materials line naming a part. */
  lemma {:induction false} ExpandPartLine(s: State, i: nat, k: nat, amount: int, p: Id)
    requires Valid(s.inv) && NoStockFrom(s.inv, i + 1) && i < |s.inv.assemblies|
    requires k < |s.inv.assemblies[i].items.list| && amount > 0
    requires IsPartId(s.inv.assemblies[i].items.list[k].id)
    ensures Expand(s, i, k, amount).inv == s.inv
    ensures Qty(Expand(s, i, k, amount).needed.list, p)
         == Qty(s.needed.list, p) + amount * ExplodeLines(s.inv, i, k, p)
    decreases |s.inv.assemblies| - i, 0, |s.inv.assemblies[i].items.list| - k, 0
  {
    var line := LineAt(s, i, k);
    assert BomOk(s.inv, i) && ComponentOk(s.inv, i, line.id);
    var q := line.quantity * amount;
    var s1 := s.(needed := AddItem(s.inv, s.needed, line.id, q));
    ExpandPartUnfold(s, i, k, amount);
    ExpandNoStock(s1, i, k + 1, amount, p);
    var here := if line.id == p then line.quantity else 0;
    var rest := ExplodeLines(s.inv, i, k + 1, p);
    ExplodePartUnfold(s.inv, i, k, p);
    PartLineQty(s, line, amount, p);
    var before := Qty(s.needed.list, p);
    var mid := Qty(s1.needed.list, p);
    var after := Qty(Expand(s1, i, k + 1, amount).needed.list, p);
    assert Qty(Expand(s, i, k, amount).needed.list, p) == after;
    ScaleStep(before, mid, after, amount, here, rest, ExplodeLines(s.inv, i, k, p));
  }

  lemma ExplodePartUnfold(inv: Inventory, i: nat, k: nat, p: Id)
    requires Valid(inv) && i < |inv.assemblies| && k < |inv.assemblies[i].items.list|
    requires IsPartId(inv.assemblies[i].items.list[k].id)
    ensures var line := inv.assemblies[i].items.list[k];
      ExplodeLines(inv, i, k, p) == (if line.id == p then line.quantity else 0) + ExplodeLines(inv, i, k + 1, p)
  {
  }

  lemma PartLineQty(s: State, line: Item, amount: int, p: Id)
    requires ValidItem(s.inv, line.id)
    ensures Qty(AddItem(s.inv, s.needed, line.id, line.quantity * amount).list, p)
         == Qty(s.needed.list, p) + amount * (if line.id == p then line.quantity else 0)
  {
    MulAssoc(line.quantity, amount, 1);
  }

  /** One bill-of-materials line naming a sub-assembly. */
  lemma {:induction false} ExpandAssemblyLine(s: State, i: nat, k: nat, amount: int, p: Id)
    requires Valid(s.inv) && NoStockFrom(s.inv, i + 1) && i < |s.inv.assemblies|
    requires k < |s.inv.assemblies[i].items.list| && amount > 0
    requires !IsPartId(s.inv.assemblies[i].items.list[k].id)
    ensures Expand(s, i, k, amount).inv == s.inv
    ensures Qty(Expand(s, i, k, amount).needed.list, p)
         == Qty(s.needed.list, p) + amount * ExplodeLines(s.inv, i, k, p)
    decreases |s.inv.assemblies| - i, 0, |s.inv.assemblies[i].items.list| - k, 0
  {
    var line := s.inv.assemblies[i].items.list[k];
    assert BomOk(s.inv, i) && ComponentOk(s.inv, i, line.id);
    var q := line.quantity * amount;
    assert q > 0;
    var r := Expand(s, i, k, amount);
    var j := LookupAssembly(s.inv, line.id).value;
    var s1 := Get(s, line.id, q);
    assert ExpandLine(s, i, k, amount) == s1;
    assert r == Expand(s1, i, k + 1, amount);
    assert s.inv.assemblies[j].onHand == 0;
    GetNoStock(s, line.id, q, p);
    assert s1.inv == s.inv;
    ExpandNoStock(s1, i, k + 1, amount, p);
    var e := Explode(s.inv, j, p);
    var rest := ExplodeLines(s.inv, i, k + 1, p);
    assert ExplodeLines(s.inv, i, k, p) == line.quantity * e + rest;
    MulAssoc(line.quantity, amount, e);
    ScaleStep(Qty(s.needed.list, p), Qty(s1.needed.list, p), Qty(r.needed.list, p), amount, line.quantity * e, rest, ExplodeLines(s.inv, i, k, p));
  }

  /** stock of n units of the assembly at index i when nothing is on hand
      further down the list: on_hand rises to at most the capacity, and the
      shortage list grows by the units added times the flattened bill of
      materials. */
  lemma StockNoStock(s: State, id: Id, i: nat, n: int, p: Id)
    requires Valid(s.inv) && n > 0 && LookupAssembly(s.inv, id) == Some(i) && NoStockFrom(s.inv, i + 1)
    ensures && Stock(s, id, n).inv
               == SetOnHand(s.inv, i, Min(s.inv.assemblies[i].onHand + n, s.inv.assemblies[i].capacity))
            && Qty(Stock(s, id, n).needed.list, p)
               == Qty(s.needed.list, p) + Min(n, s.inv.assemblies[i].capacity - s.inv.assemblies[i].onHand) * Explode(s.inv, i, p)
  {
    StockFound(s, id, i, n);
    StockAtNoStock(s, i, n, p);
  }

  lemma StockAtNoStock(s: State, i: nat, n: int, p: Id)
    requires Valid(s.inv) && i < |s.inv.assemblies| && n > 0 && NoStockFrom(s.inv, i + 1)
    ensures var a := s.inv.assemblies[i];
      && StockAt(s, i, n).inv == SetOnHand(s.inv, i, Min(a.onHand + n, a.capacity))
      && Qty(StockAt(s, i, n).needed.list, p)
         == Qty(s.needed.list, p) + Min(n, a.capacity - a.onHand) * Explode(s.inv, i, p)
  {
    if s.inv.assemblies[i].onHand < s.inv.assemblies[i].capacity {
      StockAtRoom(s, i, n, p);
    } else {
      StockAtFull(s, i, n, p);
    }
  }

  /** stock on a full assembly changes nothing. */
  lemma StockAtFull(s: State, i: nat, n: int, p: Id)
    requires Valid(s.inv) && i < |s.inv.assemblies| && n > 0
    requires s.inv.assemblies[i].onHand >= s.inv.assemblies[i].capacity
    ensures var a := s.inv.assemblies[i];
      && StockAt(s, i, n).inv == SetOnHand(s.inv, i, Min(a.onHand + n, a.capacity))
      && Qty(StockAt(s, i, n).needed.list, p)
         == Qty(s.needed.list, p) + Min(n, a.capacity - a.onHand) * Explode(s.inv, i, p)
  {
    assert SetOnHand(s.inv, i, s.inv.assemblies[i].capacity) == s.inv;
  }

  /** stock on an assembly below capacity, with nothing on hand further
      down the list. */
  lemma StockAtRoom(s: State, i: nat, n: int, p: Id)
    requires Valid(s.inv) && i < |s.inv.assemblies| && n > 0 && NoStockFrom(s.inv, i + 1)
    requires s.inv.assemblies[i].onHand < s.inv.assemblies[i].capacity
    ensures var a := s.inv.assemblies[i];
      && StockAt(s, i, n).inv == SetOnHand(s.inv, i, Min(a.onHand + n, a.capacity))
      && Qty(StockAt(s, i, n).needed.list, p)
         == Qty(s.needed.list, p) + Min(n, a.capacity - a.onHand) * Explode(s.inv, i, p)
  {
    StockedFacts(s, i, n, p);
    StockAmounts(s.inv.assemblies[i].onHand, s.inv.assemblies[i].capacity, n);
    StockAtUnfold(s, i, n);
    StockExpansion(Stocked(s, i, n), i, Min(n, s.inv.assemblies[i].capacity - s.inv.assemblies[i].onHand), p);
    Rescale(Qty(StockAt(s, i, n).needed.list, p), Qty(s.needed.list, p),
            Min(n, s.inv.assemblies[i].capacity - s.inv.assemblies[i].onHand),
            Min(n, s.inv.assemblies[i].capacity - s.inv.assemblies[i].onHand),
            Explode(Stocked(s, i, n).inv, i, p), Explode(s.inv, i, p));
  }

  /** The state stock expands from: on_hand raised, the make line logged. */
  function Stocked(s: State, i: nat, n: int): State
    requires i < |s.inv.assemblies|
  {
    var a := s.inv.assemblies[i];
    var amount := if a.onHand + n > a.capacity then a.capacity - a.onHand else n;
    var onHand' := if a.onHand + n > a.capacity then a.capacity else a.onHand + n;
    State(SetOnHand(s.inv, i, onHand'), s.needed, s.log + [Manufacture(amount, a.id)])
  }

  /** That state is well formed, still has nothing on hand further down the
      list, and has the same flattened bill of materials. */
  lemma StockedFacts(s: State, i: nat, n: int, p: Id)
    requires Valid(s.inv) && i < |s.inv.assemblies| && n > 0 && NoStockFrom(s.inv, i + 1)
    requires s.inv.assemblies[i].onHand < s.inv.assemblies[i].capacity
    ensures Valid(Stocked(s, i, n).inv) && NoStockFrom(Stocked(s, i, n).inv, i + 1)
    ensures Stocked(s, i, n).needed == s.needed
    ensures Stocked(s, i, n).inv == SetOnHand(s.inv, i, Min(s.inv.assemblies[i].onHand + n, s.inv.assemblies[i].capacity))
    ensures Explode(Stocked(s, i, n).inv, i, p) == Explode(s.inv, i, p)
  {
    var a := s.inv.assemblies[i];
    StockAmounts(a.onHand, a.capacity, n);
    ExplodeSameShape(s.inv, Stocked(s, i, n).inv, i, p);
  }

  /** Below capacity, stock expands from that state for the units added. */
  lemma {:induction false} StockAtUnfold(s: State, i: nat, n: int)
    requires Valid(s.inv) && i < |s.inv.assemblies| && n > 0
    requires s.inv.assemblies[i].onHand < s.inv.assemblies[i].capacity
    requires Valid(Stocked(s, i, n).inv)
    ensures var a := s.inv.assemblies[i];
      StockAt(s, i, n) == Expand(Stocked(s, i, n), i, 0, if a.onHand + n > a.capacity then a.capacity - a.onHand else n)
  {
    StockAmounts(s.inv.assemblies[i].onHand, s.inv.assemblies[i].capacity, n);
    StockAtWith(s, i, n,
                if s.inv.assemblies[i].onHand + n > s.inv.assemblies[i].capacity
                then s.inv.assemblies[i].capacity - s.inv.assemblies[i].onHand else n,
                if s.inv.assemblies[i].onHand + n > s.inv.assemblies[i].capacity
                then s.inv.assemblies[i].capacity else s.inv.assemblies[i].onHand + n);
  }

  /** StockAt once the two amounts are known and something is added. */
  lemma {:induction false} StockAtWith(s: State, i: nat, n: int, amount: int, onHand': int)
    requires Valid(s.inv) && i < |s.inv.assemblies| && n > 0 && amount > 0
    requires amount == if s.inv.assemblies[i].onHand + n > s.inv.assemblies[i].capacity
                       then s.inv.assemblies[i].capacity - s.inv.assemblies[i].onHand else n
    requires onHand' == if s.inv.assemblies[i].onHand + n > s.inv.assemblies[i].capacity
                        then s.inv.assemblies[i].capacity else s.inv.assemblies[i].onHand + n
    ensures StockAt(s, i, n)
         == Expand(State(SetOnHand(s.inv, i, onHand'), s.needed, s.log + [Manufacture(amount, s.inv.assemblies[i].id)]),
                   i, 0, amount)
  {
  }

  /** The code's two conditional expressions are the two minima. */
  lemma StockAmounts(onHand: int, capacity: int, n: int)
    requires onHand < capacity && n > 0
    ensures (if onHand + n > capacity then capacity - onHand else n) == Min(n, capacity - onHand) > 0
    ensures (if onHand + n > capacity then capacity else onHand + n) == Min(onHand + n, capacity)
  {
  }

  /** The expansion stock performs, when nothing is on hand further down
      the list: the inventory stays as stock left it, and each part's
      shortage rises by the amount times the flattened bill of materials. */
  lemma StockExpansion(s1: State, i: nat, amount: int, p: Id)
    requires Valid(s1.inv) && i < |s1.inv.assemblies| && NoStockFrom(s1.inv, i + 1) && amount > 0
    ensures Expand(s1, i, 0, amount).inv == s1.inv
    ensures Qty(Expand(s1, i, 0, amount).needed.list, p) == Qty(s1.needed.list, p) + amount * Explode(s1.inv, i, p)
  {
    ExpandNoStock(s1, i, 0, amount, p);
  }

  /** One restock step under the same condition: an assembly below the
      threshold is filled, and the shortage list grows by capacity - on_hand
      times its flattened bill of materials; otherwise nothing changes. */
  lemma {:induction false} RestockAtNoStock(s: State, i: nat, p: Id)
    requires Valid(s.inv) && i < |s.inv.assemblies| && NoStockFrom(s.inv, i + 1)
    ensures var a := s.inv.assemblies[i];
      && RestockAt(s, i).inv == SetOnHand(s.inv, i, if BelowThreshold(a) then a.capacity else a.onHand)
      && Qty(RestockAt(s, i).needed.list, p)
         == Qty(s.needed.list, p) + (if BelowThreshold(a) then a.capacity - a.onHand else 0) * Explode(s.inv, i, p)
  {
    if BelowThreshold(s.inv.assemblies[i]) {
      RestockAtBelow(s, i, p);
      ScaleWhen(Qty(RestockAt(s, i).needed.list, p), Qty(s.needed.list, p), true,
                s.inv.assemblies[i].capacity - s.inv.assemblies[i].onHand, Explode(s.inv, i, p));
    } else {
      RestockAtAbove(s, i);
      ScaleWhen(Qty(RestockAt(s, i).needed.list, p), Qty(s.needed.list, p), false,
                s.inv.assemblies[i].capacity - s.inv.assemblies[i].onHand, Explode(s.inv, i, p));
    }
  }

  /** A restock step on an assembly below the threshold fills it. */
  lemma RestockAtBelow(s: State, i: nat, p: Id)
    requires Valid(s.inv) && i < |s.inv.assemblies| && NoStockFrom(s.inv, i + 1)
    requires BelowThreshold(s.inv.assemblies[i])
    ensures var a := s.inv.assemblies[i];
      && RestockAt(s, i).inv == SetOnHand(s.inv, i, a.capacity)
      && Qty(RestockAt(s, i).needed.list, p) == Qty(s.needed.list, p) + (a.capacity - a.onHand) * Explode(s.inv, i, p)
  {
    RestockAtUnfold(s, i);
    RestockFill(s, i, p);
  }

  /** A restock step on an assembly at or above the threshold is a no-op. */
  lemma RestockAtAbove(s: State, i: nat)
    requires Valid(s.inv) && i < |s.inv.assemblies| && !BelowThreshold(s.inv.assemblies[i])
    ensures RestockAt(s, i) == s && SetOnHand(s.inv, i, s.inv.assemblies[i].onHand) == s.inv
  {
  }

  /** The stock call a restock step makes fills the assembly. */
  lemma RestockFill(s: State, i: nat, p: Id)
    requires Valid(s.inv) && i < |s.inv.assemblies| && NoStockFrom(s.inv, i + 1)
    requires BelowThreshold(s.inv.assemblies[i])
    ensures var a := s.inv.assemblies[i];
      var r := StockAt(State(s.inv, s.needed, s.log + [Restocking(a.id, a.capacity - a.onHand)]), i, a.capacity - a.onHand);
      && r.inv == SetOnHand(s.inv, i, a.capacity)
      && Qty(r.needed.list, p) == Qty(s.needed.list, p) + (a.capacity - a.onHand) * Explode(s.inv, i, p)
  {
    var a := s.inv.assemblies[i];
    StockFill(State(s.inv, s.needed, s.log + [Restocking(a.id, a.capacity - a.onHand)]), i, a.capacity - a.onHand, p);
  }

  /** stock of exactly the room left fills the assembly. */
  lemma StockFill(s: State, i: nat, amount: int, p: Id)
    requires Valid(s.inv) && i < |s.inv.assemblies| && NoStockFrom(s.inv, i + 1)
    requires amount > 0 && amount == s.inv.assemblies[i].capacity - s.inv.assemblies[i].onHand
    ensures var a := s.inv.assemblies[i];
      && StockAt(s, i, amount).inv == SetOnHand(s.inv, i, a.capacity)
      && Qty(StockAt(s, i, amount).needed.list, p) == Qty(s.needed.list, p) + amount * Explode(s.inv, i, p)
  {
    var a := s.inv.assemblies[i];
    var r := StockAt(s, i, amount);
    StockAtNoStock(s, i, amount, p);
    FillUp(a.onHand, a.capacity, amount);
    Rescale(Qty(r.needed.list, p), Qty(s.needed.list, p), Min(amount, a.capacity - a.onHand), amount, Explode(s.inv, i, p), Explode(s.inv, i, p));
  }

  lemma {:induction false} RestockAtUnfold(s: State, i: nat)
    requires Valid(s.inv) && i < |s.inv.assemblies| && BelowThreshold(s.inv.assemblies[i])
    ensures RestockAt(s, i)
         == StockAt(State(s.inv, s.needed, s.log + [Restocking(s.inv.assemblies[i].id, s.inv.assemblies[i].capacity - s.inv.assemblies[i].onHand)]),
                    i, s.inv.assemblies[i].capacity - s.inv.assemblies[i].onHand)
  {
    RestockAtVia(s, i, State(s.inv, s.needed, s.log + [Restocking(s.inv.assemblies[i].id, s.inv.assemblies[i].capacity - s.inv.assemblies[i].onHand)]));
  }

  /** RestockAtUnfold with the state stock starts from named. */
  lemma {:induction false} RestockAtVia(s: State, i: nat, t: State)
    requires Valid(s.inv) && i < |s.inv.assemblies| && BelowThreshold(s.inv.assemblies[i])
    requires t == State(s.inv, s.needed, s.log + [Restocking(s.inv.assemblies[i].id, s.inv.assemblies[i].capacity - s.inv.assemblies[i].onHand)])
    ensures RestockAt(s, i) == StockAt(t, i, s.inv.assemblies[i].capacity - s.inv.assemblies[i].onHand)
  {
  }

  /** A restock step is stock called with the assembly's own id, as the
      code calls it. */
  lemma RestockAtIsStock(s: State, i: nat)
    requires Valid(s.inv) && i < |s.inv.assemblies| && BelowThreshold(s.inv.assemblies[i])
    ensures var a := s.inv.assemblies[i];
      RestockAt(s, i) == Stock(State(s.inv, s.needed, s.log + [Restocking(a.id, a.capacity - a.onHand)]), a.id, a.capacity - a.onHand)
  {
    var a := s.inv.assemblies[i];
    var s0 := State(s.inv, s.needed, s.log + [Restocking(a.id, a.capacity - a.onHand)]);
    RestockAtUnfold(s, i);
    LookupOwnId(s0.inv, i);
    StockFound(s0, a.id, i, a.capacity - a.onHand);
  }

  /** restock ID on an assembly below the threshold logs the restocking
      line and then stocks capacity - on_hand units under that id, which
      makes them and adds their parts to the shortage list. */
  lemma RestockIsStock(s: State, id: Id)
    requires Valid(s.inv) && LookupAssembly(s.inv, id).Some?
    ensures var i := LookupAssembly(s.inv, id).value;
      var a := s.inv.assemblies[i];
      BelowThreshold(a) ==>
        Restock(s, id) == Stock(State(s.inv, s.needed, s.log + [Restocking(id, a.capacity - a.onHand)]), id, a.capacity - a.onHand)
  {
    var i := LookupAssembly(s.inv, id).value;
    if BelowThreshold(s.inv.assemblies[i]) {
      RestockAtIsStock(s, i);
    }
  }

  lemma StockFound(s: State, id: Id, i: nat, n: int)
    requires Valid(s.inv) && LookupAssembly(s.inv, id) == Some(i) && n > 0
    ensures i < |s.inv.assemblies| && Stock(s, id, n) == StockAt(s, i, n)
  {
  }

  // Arithmetic steps that the proofs above hand to the solver one at a time.
  // They are proof helpers only and model nothing in the inventory code.

  /** Arithmetic of one expansion step: what this line adds plus what the
      remaining lines add is `amount` times the line's share plus the rest. */
  lemma ScaleStep(before: int, mid: int, after: int, amount: int, here: int, rest: int, total: int)
    requires mid == before + amount * here
    requires after == mid + amount * rest
    requires total == here + rest
    ensures after == before + amount * total
  {
  }

  lemma MulAssoc(a: int, b: int, c: int)
    ensures (a * b) * c == b * (a * c)
  {
  }

  /** Adding exactly the room left fills to capacity. */
  lemma FillUp(onHand: int, capacity: int, amount: int)
    requires amount == capacity - onHand
    ensures Min(onHand + amount, capacity) == capacity && Min(amount, capacity - onHand) == amount
  {
  }

  /** Rescale for a demand that is added only when c holds. */
  lemma ScaleWhen(q: int, q0: int, c: bool, m: int, e: int)
    requires if c then q == q0 + m * e else q == q0
    ensures q == q0 + (if c then m else 0) * e
  {
  }

  /** Rewriting both factors of a product, so the solver need not. */
  lemma Rescale(q: int, q0: int, m: int, amount: int, e1: int, e: int)
    requires m == amount && e1 == e && q == q0 + m * e1
    ensures q == q0 + amount * e
  {
  }
}

=== FILE: ids.dfy ===
// Identifiers of parts and assemblies, and the linear searches the inventory
// performs over its singly linked lists.

/** Identifier shape (`valid_part_id`, `valid_assembly_id`) and list search
    (`lookup_part`, `lookup_assembly`, `lookup_item`), stated once over
    sequences of identifiers. */
module Ids {

  /** An identifier as read from a command line. */
  type Id = string

  /** Longest identifier the inventory stores, prefix letter included. */
  const ID_MAX: nat := 11

  /** The result of a search: the index found, or nothing. */
  datatype Option<T> = None | Some(value: T)

  /** The kind prefix of a part identifier. An empty string has none. */
  predicate IsPartId(id: Id) {
    |id| > 0 && id[0] == 'P'
  }

  /** The kind prefix of an assembly identifier. */
  predicate IsAssemblyId(id: Id) {
    |id| > 0 && id[0] == 'A'
  }

  /** A part identifier the inventory accepts: prefix 'P', at most ID_MAX long. */
  predicate ValidPartId(id: Id) {
    IsPartId(id) && |id| <= ID_MAX
  }

  /** An assembly identifier the inventory accepts: prefix 'A', at most ID_MAX long. */
  predicate ValidAssemblyId(id: Id) {
    IsAssemblyId(id) && |id| <= ID_MAX
  }

  /** Walk a list from its head and stop at the first exact match: the index
      of that node, or None when the walk falls off the end (a NULL result). */
  function Find(ids: seq<Id>, id: Id): (r: Option<nat>)
    ensures r.Some? ==> r.value < |ids| && ids[r.value] == id
    ensures r.Some? ==> forall j | 0 <= j < r.value :: ids[j] != id
    ensures r.None? <==> id !in ids
  {
    if |ids| == 0 then None
    else if ids[0] == id then Some(0)
    else match Find(ids[1..], id)
      case None => None
      case Some(j) => Some(j + 1)
  }

  /** No identifier occurs twice. */
  predicate Distinct(ids: seq<Id>) {
    forall j, k | 0 <= j < k < |ids| :: ids[j] != ids[k]
  }

  /** In a list without repetitions every element is found where it is. */
  lemma DistinctFind(ids: seq<Id>, k: nat)
    requires Distinct(ids) && k < |ids|
    ensures Find(ids, ids[k]) == Some(k)
  {
  }

  /** Putting an id in front shifts every other search result by one. */
  lemma FindCons(x: Id, ids: seq<Id>, id: Id)
    ensures Find([x] + ids, id) ==
      if id == x then Some(0)
      else match Find(ids, id)
        case None => None
        case Some(j) => Some(j + 1)
  {
  }

  /** The set of ids of a list without repetitions has as many elements as
      the list: a count kept alongside such a list counts distinct ids. */
  lemma {:induction false} DistinctCard(ids: seq<Id>)
    requires Distinct(ids)
    ensures |set id | id in ids| == |ids|
  {
    if |ids| > 0 {
      var rest := ids[1..];
      assert Distinct(rest);
      DistinctCard(rest);
      assert ids[0] !in rest;
      assert (set id | id in ids) == {ids[0]} + (set id | id in rest);
    }
  }
}

=== FILE: order_props.dfy ===
// Properties of the fulfillOrder loop: how it splits over an order, where it
// stops, and what it asks for when nothing is in stock; and what the
// fulfillOrder and stock commands print.

module OrderProps {
  import opened Ids
  import opened Catalog
  import opened Demand
  import opened Commands
  import opened DemandProps

  /** Once a prefix of the order has gone through with every pair valid,
      the rest of the order is processed from where that prefix left off:
      the loop is a left fold of make over the pairs. */
  lemma {:induction false} FulfillAppend(s: State, front: seq<Item>, back: seq<Item>)
    requires Valid(s.inv) && FulfillFrom(s, front).valid
    ensures FulfillFrom(s, front + back) == FulfillFrom(FulfillFrom(s, front).state, back)
    decreases |front|
  {
    if |front| > 0 {
      var s1 := Make(s, front[0].id, front[0].quantity);
      SameShapeLookups(s.inv, s1.inv);
      assert (front + back)[0] == front[0];
      assert (front + back)[1..] == front[1..] + back;
      FulfillAppend(s1, front[1..], back);
    } else {
      assert front + back == back;
    }
  }

  /** The first invalid pair ends the loop: whatever follows it is neither
      made nor checked. */
  lemma {:induction false} FulfillStops(s: State, front: seq<Item>, back: seq<Item>)
    requires Valid(s.inv) && !FulfillFrom(s, front).valid
    ensures FulfillFrom(s, front + back) == FulfillFrom(s, front)
    decreases |front|
  {
    var s1 := Make(s, front[0].id, front[0].quantity);
    SameShapeLookups(s.inv, s1.inv);
    assert (front + back)[0] == front[0];
    assert (front + back)[1..] == front[1..] + back;
    if front[0].quantity > 0 && LookupAssembly(s1.inv, front[0].id).Some? {
      FulfillStops(s1, front[1..], back);
    }
  }

  /** What a fully valid order consumes of part p when nothing is on hand:
      each pair's quantity times the flattened bill of materials of its
      assembly. */
  function OrderDemand(inv: Inventory, order: seq<Item>, p: Id): int
    requires Valid(inv)
    requires forall k | 0 <= k < |order| :: OrderLineOk(inv, order[k])
    decreases |order|
  {
    if |order| == 0 then 0
    else
      assert OrderLineOk(inv, order[0]);
      assert forall k | 1 <= k < |order| :: order[1..][k - 1] == order[k];
      order[0].quantity * Explode(inv, LookupAssembly(inv, order[0].id).value, p)
        + OrderDemand(inv, order[1..], p)
  }

  /** With nothing on hand anywhere, a valid order leaves the inventory
      exactly as it was and adds its OrderDemand of every part to the
      shortage list. */
  lemma {:induction false} FulfillNoStock(s: State, order: seq<Item>, p: Id)
    requires Valid(s.inv) && NoStock(s.inv)
    requires forall k | 0 <= k < |order| :: OrderLineOk(s.inv, order[k])
    ensures FulfillFrom(s, order).valid
    ensures FulfillFrom(s, order).state.inv == s.inv
    ensures Qty(FulfillFrom(s, order).state.needed.list, p)
         == Qty(s.needed.list, p) + OrderDemand(s.inv, order, p)
    decreases |order|
  {
    if |order| > 0 {
      var line := order[0];
      assert OrderLineOk(s.inv, line);
      var s1 := Make(s, line.id, line.quantity);
      MakeNoStockAll(s, line.id, line.quantity, p);
      assert forall k | 1 <= k < |order| :: order[1..][k - 1] == order[k];
      assert FulfillFrom(s, order) == FulfillFrom(s1, order[1..]);
      FulfillNoStock(s1, order[1..], p);
    }
  }

  /** Splitting one pair `A n+m` into `A n A m` changes nothing when nothing
      is on hand: the order asks for the same parts either way. */
  lemma SplitPairNoStock(inv: Inventory, id: Id, n: int, m: int, p: Id)
    requires Valid(inv) && NoStock(inv) && n > 0 && m > 0 && LookupAssembly(inv, id).Some?
    ensures var whole := FulfillFrom(State(inv, NoItems, []), [Item(id, n + m)]).state;
            var split := FulfillFrom(State(inv, NoItems, []), [Item(id, n), Item(id, m)]).state;
      whole.inv == split.inv == inv && Qty(whole.needed.list, p) == Qty(split.needed.list, p)
  {
    SplitPairDemand(inv, id, n, m, p);
    SameDemandNoStock(inv, [Item(id, n + m)], [Item(id, n), Item(id, m)], p);
  }

  /** Two valid orders with the same OrderDemand of p leave, with nothing
      on hand, the same inventory and the same shortage of p. */
  lemma SameDemandNoStock(inv: Inventory, o1: seq<Item>, o2: seq<Item>, p: Id)
    requires Valid(inv) && NoStock(inv)
    requires forall k | 0 <= k < |o1| :: OrderLineOk(inv, o1[k])
    requires forall k | 0 <= k < |o2| :: OrderLineOk(inv, o2[k])
    requires OrderDemand(inv, o1, p) == OrderDemand(inv, o2, p)
    ensures FulfillFrom(State(inv, NoItems, []), o1).state.inv == inv
    ensures FulfillFrom(State(inv, NoItems, []), o2).state.inv == inv
    ensures Qty(FulfillFrom(State(inv, NoItems, []), o1).state.needed.list, p)
         == Qty(FulfillFrom(State(inv, NoItems, []), o2).state.needed.list, p)
  {
    FulfillNoStock(State(inv, NoItems, []), o1, p);
    FulfillNoStock(State(inv, NoItems, []), o2, p);
  }

  /** `A n+m` and `A n A m` have the same OrderDemand. */
  lemma SplitPairDemand(inv: Inventory, id: Id, n: int, m: int, p: Id)
    requires Valid(inv) && n > 0 && m > 0 && LookupAssembly(inv, id).Some?
    ensures OrderLineOk(inv, Item(id, n + m)) && OrderLineOk(inv, Item(id, n)) && OrderLineOk(inv, Item(id, m))
    ensures OrderDemand(inv, [Item(id, n + m)], p) == OrderDemand(inv, [Item(id, n), Item(id, m)], p)
  {
    assert [Item(id, n), Item(id, m)][1..] == [Item(id, m)];
    OrderDemandSingle(inv, Item(id, n + m), p);
    OrderDemandSingle(inv, Item(id, m), p);
    Distribute(OrderDemand(inv, [Item(id, n), Item(id, m)], p), n, m, Explode(inv, LookupAssembly(inv, id).value, p));
  }

  lemma OrderDemandSingle(inv: Inventory, x: Item, p: Id)
    requires Valid(inv) && OrderLineOk(inv, x)
    ensures OrderDemand(inv, [x], p) == x.quantity * Explode(inv, LookupAssembly(inv, x.id).value, p)
  {
  }

  /** With nothing on hand anywhere, fulfillOrder of a valid order leaves
      the inventory as it was and prints, for every part, exactly the
      order's OrderDemand; the list is printed exactly when some part is
      asked for. */
  lemma FulfillOrderNoStock(inv: Inventory, order: seq<Item>)
    requires Valid(inv) && NoStock(inv)
    requires forall k | 0 <= k < |order| :: OrderLineOk(inv, order[k])
    ensures FulfillOrder(inv, order).inv == inv
    ensures forall p :: Qty(Shown(FulfillOrder(inv, order)), p) == OrderDemand(inv, order, p)
    ensures FulfillOrder(inv, order).report.Some? <==> exists p :: OrderDemand(inv, order, p) != 0
  {
    var s := State(inv, NoItems, []);
    var f := FulfillFrom(s, order);
    assert ShortagesOk(inv.parts, s.needed);
    assert f.valid;
    forall p ensures Qty(f.state.needed.list, p) == OrderDemand(inv, order, p) {
      FulfillNoStock(s, order, p);
    }
    FulfillNoStock(s, order, []);
    ReportShowsAll(FulfillOrder(inv, order), f.state.needed);
  }

  /** A printed list that is the whole shortage list shows every shortage,
      and it is printed exactly when some part is short. */
  lemma ReportShowsAll(r: Reply, needed: ItemsNeeded)
    requires ItemsOk(needed) && Positive(needed.list)
    requires r.report.Some? <==> |needed.list| > 0
    requires r.report.Some? ==> r.report.value == needed
    ensures forall p :: Qty(Shown(r), p) == Qty(needed.list, p)
    ensures r.report.Some? <==> exists p :: Qty(needed.list, p) != 0
  {
    if |needed.list| > 0 {
      QtyAt(needed.list, 0);
    }
  }

  /** stock n of the assembly at index i when nothing is on hand further
      down the list prints, for every part, Min(n, capacity - on_hand)
      times the flattened bill of materials, and prints the list exactly
      when that is nonzero for some part. */
  lemma StockCommandNoStock(inv: Inventory, id: Id, n: int)
    requires Valid(inv) && n > 0 && LookupAssembly(inv, id).Some?
    requires NoStockFrom(inv, LookupAssembly(inv, id).value + 1)
    ensures var i := LookupAssembly(inv, id).value;
            var a := inv.assemblies[i];
      && (forall p :: Qty(Shown(StockCommand(inv, id, n)), p) == Min(n, a.capacity - a.onHand) * Explode(inv, i, p))
      && (StockCommand(inv, id, n).report.Some? <==> exists p :: Min(n, a.capacity - a.onHand) * Explode(inv, i, p) != 0)
  {
    StockCommandAmounts(inv, id, n);
    StockCommandPrints(inv, id, n);
  }

  /** The amounts half of StockCommandNoStock. */
  lemma StockCommandAmounts(inv: Inventory, id: Id, n: int)
    requires Valid(inv) && n > 0 && LookupAssembly(inv, id).Some?
    requires NoStockFrom(inv, LookupAssembly(inv, id).value + 1)
    ensures var i := LookupAssembly(inv, id).value;
            var a := inv.assemblies[i];
      forall p :: Qty(Shown(StockCommand(inv, id, n)), p) == Min(n, a.capacity - a.onHand) * Explode(inv, i, p)
  {
    StockCommandShows(inv, id, n);
    forall p ensures Qty(Shown(StockCommand(inv, id, n)), p)
                  == Min(n, inv.assemblies[LookupAssembly(inv, id).value].capacity - inv.assemblies[LookupAssembly(inv, id).value].onHand)
                     * Explode(inv, LookupAssembly(inv, id).value, p) {
      StockFromEmpty(inv, id, n, p);
    }
  }

  /** The printing half of StockCommandNoStock. */
  lemma StockCommandPrints(inv: Inventory, id: Id, n: int)
    requires Valid(inv) && n > 0 && LookupAssembly(inv, id).Some?
    requires NoStockFrom(inv, LookupAssembly(inv, id).value + 1)
    ensures var i := LookupAssembly(inv, id).value;
            var a := inv.assemblies[i];
      StockCommand(inv, id, n).report.Some? <==> exists p :: Min(n, a.capacity - a.onHand) * Explode(inv, i, p) != 0
  {
    StockCommandShows(inv, id, n);
    StockAsksFor(inv, id, n);
  }

  /** stock from an empty shortage list leaves some part short exactly when
      the units made ask for some part. */
  lemma StockAsksFor(inv: Inventory, id: Id, n: int)
    requires Valid(inv) && n > 0 && LookupAssembly(inv, id).Some?
    requires NoStockFrom(inv, LookupAssembly(inv, id).value + 1)
    ensures var i := LookupAssembly(inv, id).value;
            var a := inv.assemblies[i];
      (exists p :: Qty(Stock(State(inv, NoItems, []), id, n).needed.list, p) != 0)
      <==> (exists p :: Min(n, a.capacity - a.onHand) * Explode(inv, i, p) != 0)
  {
    StockFromEmptyAll(inv, id, n);
    NonzeroAlike(Stock(State(inv, NoItems, []), id, n).needed.list, inv, LookupAssembly(inv, id).value,
                 Min(n, inv.assemblies[LookupAssembly(inv, id).value].capacity
                        - inv.assemblies[LookupAssembly(inv, id).value].onHand));
  }

  /** StockFromEmpty for every part at once. */
  lemma StockFromEmptyAll(inv: Inventory, id: Id, n: int)
    requires Valid(inv) && n > 0 && LookupAssembly(inv, id).Some?
    requires NoStockFrom(inv, LookupAssembly(inv, id).value + 1)
    ensures var i := LookupAssembly(inv, id).value;
      forall p :: Qty(Stock(State(inv, NoItems, []), id, n).needed.list, p)
                  == Min(n, inv.assemblies[i].capacity - inv.assemblies[i].onHand) * Explode(inv, i, p)
  {
    forall p ensures Qty(Stock(State(inv, NoItems, []), id, n).needed.list, p)
                  == Min(n, inv.assemblies[LookupAssembly(inv, id).value].capacity
                            - inv.assemblies[LookupAssembly(inv, id).value].onHand)
                     * Explode(inv, LookupAssembly(inv, id).value, p) {
      StockFromEmpty(inv, id, n, p);
    }
  }

  /** A list whose quantities are m times the flattened bill of materials
      has a nonzero quantity exactly when that product is nonzero somewhere. */
  lemma NonzeroAlike(items: seq<Item>, inv: Inventory, i: nat, m: int)
    requires Valid(inv) && i < |inv.assemblies|
    requires forall p :: Qty(items, p) == m * Explode(inv, i, p)
    ensures (exists p :: Qty(items, p) != 0) <==> (exists p :: m * Explode(inv, i, p) != 0)
  {
    if exists p :: Qty(items, p) != 0 {
      var p :| Qty(items, p) != 0;
      assert m * Explode(inv, i, p) != 0;
      assert exists q :: m * Explode(inv, i, q) != 0;
    }
    if exists p :: m * Explode(inv, i, p) != 0 {
      var p :| m * Explode(inv, i, p) != 0;
      assert Qty(items, p) != 0;
      assert exists q :: Qty(items, q) != 0;
    }
  }

  /** The stock command prints the whole shortage list stock leaves. */
  lemma StockCommandShows(inv: Inventory, id: Id, n: int)
    requires Valid(inv)
    ensures var t := Stock(State(inv, NoItems, []), id, n);
      && (forall p :: Qty(Shown(StockCommand(inv, id, n)), p) == Qty(t.needed.list, p))
      && (StockCommand(inv, id, n).report.Some? <==> exists p :: Qty(t.needed.list, p) != 0)
  {
    var s := State(inv, NoItems, []);
    assert ShortagesOk(inv.parts, s.needed);
    ReportShowsAll(StockCommand(inv, id, n), Stock(s, id, n).needed);
  }

  /** stock from an empty shortage list, nothing on hand further down. */
  lemma StockFromEmpty(inv: Inventory, id: Id, n: int, p: Id)
    requires Valid(inv) && n > 0 && LookupAssembly(inv, id).Some?
    requires NoStockFrom(inv, LookupAssembly(inv, id).value + 1)
    ensures var i := LookupAssembly(inv, id).value;
      Qty(Stock(State(inv, NoItems, []), id, n).needed.list, p)
      == Min(n, inv.assemblies[i].capacity - inv.assemblies[i].onHand) * Explode(inv, i, p)
  {
    StockNoStock(State(inv, NoItems, []), id, LookupAssembly(inv, id).value, n, p);
  }

  // An arithmetic step handed to the solver on its own; a proof helper only.

  /** Two multiples of the same factor add up to their sum's multiple. */
  lemma Distribute(q: int, n: int, m: int, e: int)
    requires q == n * e + m * e
    ensures q == (n + m) * e
  {
  }
}

=== FILE: scenarios.dfy ===
// Worked examples on a small catalog: one part, and assemblies built from it.

module Scenarios {
  import opened Ids
  import opened Catalog
  import opened Demand
  import opened Commands

  /** Part P1 and assembly A1 of capacity 10 that takes two P1 per unit,
      with `onHand` units of A1 in stock. */
  function Sample(onHand: int): Inventory {
    Inventory([Part("P1")], 1,
              [Assembly("A1", 10, onHand, ItemsNeeded([Item("P1", 2)], 1))], 1)
  }

  lemma SampleValid(onHand: int)
    requires 0 <= onHand <= 10
    ensures Valid(Sample(onHand))
  {
  }

  /** `addPart P1` then `addAssembly A1 10 P1 2` on an empty inventory
      registers exactly the sample catalog with nothing on hand. */
  lemma SampleByCommands()
    ensures Run(EmptyInventory, [addPart("P1"), addAssembly("A1", 10, [Item("P1", 2)])]) == Sample(0)
  {
    EmptyInventoryValid();
    var inv1 := AddPartCommand(EmptyInventory, "P1");
    assert inv1 == Inventory([Part("P1")], 1, [], 0);
    assert ValidItem(inv1, "P1");
    var bom1 := AddItem(inv1, NoItems, "P1", 2);
    assert bom1 == ItemsNeeded([Item("P1", 2)], 1);
    assert [Item("P1", 2)][1..] == [];
    assert BuildBom(inv1, [Item("P1", 2)], NoItems) == BuildBom(inv1, [], bom1);
    assert AddAssemblyCommand(inv1, "A1", 10, [Item("P1", 2)]) == Sample(0);
  }

  /** get 5 of A1 with none on hand: all five are made, ten P1 are short. */
  lemma GetFromEmpty()
    ensures Get(State(Sample(0), NoItems, []), "A1", 5)
         == State(Sample(0), ItemsNeeded([Item("P1", 10)], 1), [Manufacture(5, "A1")])
  {
    SampleValid(0);
    var s := State(Sample(0), NoItems, []);
    assert LookupAssembly(s.inv, "A1") == Some(0);
    assert WithOnHand(s, 0, 0) == s;
    var s1 := State(Sample(0), NoItems, [Manufacture(5, "A1")]);
    assert State(SetOnHand(s.inv, 0, 0), s.needed, s.log + [Manufacture(5, "A1")]) == s1;
    assert Get(s, "A1", 5) == Expand(s1, 0, 0, 5);
    assert ValidItem(Sample(0), "P1");
    assert AddItem(Sample(0), NoItems, "P1", 10) == ItemsNeeded([Item("P1", 10)], 1);
  }

  /** get 4 of A1 with ten on hand: taken from stock, nothing is made. */
  lemma GetFromStock()
    ensures Get(State(Sample(10), NoItems, []), "A1", 4) == State(Sample(6), NoItems, [])
  {
  }

  /** stock 100 of A1 with none on hand: capped at 10 units, which need
      twenty P1. */
  lemma StockCapped()
    ensures Stock(State(Sample(0), NoItems, []), "A1", 100)
         == State(Sample(10), ItemsNeeded([Item("P1", 20)], 1), [Manufacture(10, "A1")])
  {
    SampleValid(0);
    var s := State(Sample(0), NoItems, []);
    assert LookupAssembly(s.inv, "A1") == Some(0);
    assert SetOnHand(s.inv, 0, 10) == Sample(10);
    var s1 := State(Sample(10), NoItems, [Manufacture(10, "A1")]);
    assert s.log + [Manufacture(10, "A1")] == s1.log;
    assert State(SetOnHand(s.inv, 0, 10), s.needed, s.log + [Manufacture(10, "A1")]) == s1;
    assert Stock(s, "A1", 100) == Expand(s1, 0, 0, 10);
    assert ValidItem(Sample(10), "P1");
    SampleValid(10);
    assert AddItem(Sample(10), NoItems, "P1", 20) == ItemsNeeded([Item("P1", 20)], 1);
  }

  /** get 5 then stock 5 with only 3 on hand: get uses the 3 and makes 2,
      stock then adds 5, so on_hand ends at 5 and not at 3. */
  lemma GetThenStockCanOvershoot()
    ensures Stock(Get(State(Sample(3), NoItems, []), "A1", 5), "A1", 5).inv.assemblies[0].onHand == 5
    ensures Sample(3).assemblies[0].onHand == 3
  {
  }

  /** A full assembly is restored even when n exceeds on_hand: get 15 of a
      full A1 (10 of 10) empties it, and stock 15 fills it back to 10. */
  lemma GetThenStockFull()
    ensures Stock(Get(State(Sample(10), NoItems, []), "A1", 15), "A1", 15).inv.assemblies[0].onHand == 10
    ensures Sample(10).assemblies[0].onHand == 10
  {
  }

  /** Two assemblies, A2 registered after A1 and so listed first: A1 with 2
      of 10 on hand, A2 with 8 of 10. */
  function Pair(): Inventory {
    Inventory([Part("P1")], 1,
              [Assembly("A2", 10, 8, ItemsNeeded([Item("P1", 1)], 1)),
               Assembly("A1", 10, 2, ItemsNeeded([Item("P1", 2)], 1))], 2)
  }

  lemma PairValid()
    ensures Valid(Pair())
  {
  }

  /** Pair with A1 filled to its capacity. */
  function PairFilled(): Inventory {
    Pair().(assemblies := [Pair().assemblies[0], Pair().assemblies[1].(onHand := 10)])
  }

  /** restock over the pair: A2 (8 >= 5) is left alone, A1 (2 < 5) is
      restocked with 8 units, which need sixteen P1. */
  lemma RestockAllPair()
    ensures Valid(Pair())
    ensures RestockAll(State(Pair(), NoItems, []))
         == State(PairFilled(), ItemsNeeded([Item("P1", 16)], 1), [Restocking("A1", 8), Manufacture(8, "A1")])
  {
    PairValid();
    var s := State(Pair(), NoItems, []);
    assert RestockAt(s, 0) == s;
    assert RestockAll(s) == RestockFrom(s, 1);
    var r := RestockAt(s, 1);
    assert RestockFrom(s, 1) == RestockFrom(r, 2);
    assert RestockFrom(r, 2) == r;
    RestockPairA1();
  }

  lemma RestockPairA1()
    ensures Valid(Pair())
    ensures RestockAt(State(Pair(), NoItems, []), 1)
         == State(PairFilled(), ItemsNeeded([Item("P1", 16)], 1), [Restocking("A1", 8), Manufacture(8, "A1")])
  {
    RestockPairA1Stock();
    RestockPairA1Expand();
  }

  /** Filling A1 is setting its on_hand to 10. */
  lemma PairFilledValid()
    ensures Valid(Pair()) && Valid(PairFilled())
    ensures SetOnHand(Pair(), 1, 10) == PairFilled()
  {
    PairValid();
    assert SetOnHand(Pair(), 1, 10) == PairFilled();
  }

  /** The restock step on A1 logs 8 units, fills A1 and expands 8 units. */
  lemma RestockPairA1Stock()
    ensures Valid(Pair()) && Valid(PairFilled())
    ensures RestockAt(State(Pair(), NoItems, []), 1)
         == Expand(State(PairFilled(), NoItems, [Restocking("A1", 8), Manufacture(8, "A1")]), 1, 0, 8)
  {
    PairFilledValid();
    var s0 := State(Pair(), NoItems, []);
    var s := State(Pair(), NoItems, [Restocking("A1", 8)]);
    assert s0.log + [Restocking("A1", 8)] == s.log;
    assert RestockAt(s0, 1) == StockAt(s, 1, 8);
    var s1 := State(PairFilled(), NoItems, [Restocking("A1", 8), Manufacture(8, "A1")]);
    assert s.log + [Manufacture(8, "A1")] == s1.log;
    assert State(SetOnHand(s.inv, 1, 10), s.needed, s.log + [Manufacture(8, "A1")]) == s1;
    assert StockAt(s, 1, 8) == Expand(s1, 1, 0, 8);
  }

  /** Expanding 8 units of A1 asks for sixteen P1. */
  lemma RestockPairA1Expand()
    ensures Valid(PairFilled())
    ensures Expand(State(PairFilled(), NoItems, [Restocking("A1", 8), Manufacture(8, "A1")]), 1, 0, 8)
         == State(PairFilled(), ItemsNeeded([Item("P1", 16)], 1), [Restocking("A1", 8), Manufacture(8, "A1")])
  {
    PairFilledValid();
    var s1 := State(PairFilled(), NoItems, [Restocking("A1", 8), Manufacture(8, "A1")]);
    assert ValidItem(PairFilled(), "P1");
    assert AddItem(PairFilled(), NoItems, "P1", 16) == ItemsNeeded([Item("P1", 16)], 1);
    var s2 := State(PairFilled(), ItemsNeeded([Item("P1", 16)], 1), s1.log);
    assert Expand(s1, 1, 0, 8) == Expand(s2, 1, 1, 8);
  }
}
